=== FILE: README.md ===
# CircleLoop workflow model

CircleLoop is an e-waste collection web application. Customers file pickup
requests. An admin moves each request through Pending, Accepted or Rejected,
and Collected. A collected request becomes a stock row in the inventory, and
companies buy stock one unit at a time on the marketplace. Around that
workflow sit:

- a contact-message inbox;
- dashboards with counters;
- a sales report;
- admin user management (creation with a compensating delete, and a cascading
  delete);
- the session/profile cache that every page uses;
- the navigation bar's role-based routing.

This project models that core in Dafny as one immutable `Schema.Store`. The
store holds every table, the storage bucket's object paths, the identity
provider's accounts and the next serial row id. Each page handler is a pure
function from the store, and from the page's local view where it has one, to
an outcome. Every remote call the handler makes is an explicit `Reply` input
(`Ok` or `Failed`), so a handler that stops halfway is a result like any
other.

Modules:

| file | module | models |
|---|---|---|
| base.dfy | `Base` | `Option`, `Reply`, and the list operations the handlers use (`Filter`, `Update`, `Reverse`) with their algebra |
| text.dfy | `Text` | decimal rendering, zero-padding, character removal and "after the last dot" |
| schema.dfy | `Schema` | the tables, the serial-id invariant `WellFormed`, the stock-tracing invariant `StockTraced`, and `.single()` profile reads |
| admin_inventory.dfy | `AdminInventory` | status transitions with audit entry and automatic stock row; manual stock add, price change and delete |
| marketplace.dfy | `Marketplace` | the listing, the order button, order placement, and a corrected atomic purchase |
| customer_request.dfy | `CustomerRequest` | the request id, the upload path, and request submission |
| admin_messages.dfy | `Inbox` | the status tabs, mark-as-read, archive and delete |
| customer_dashboard.dfy | `CustomerDashboard` | the role check, the three counters and request tracking |
| company_dashboard.dfy | `CompanyDashboard` | the role check and the two counters |
| admin_sales.dfy | `Sales` | the order list and the revenue fold |
| admin_dashboard.dfy | `AdminDashboard` | the head counts, the user list and the cascading user delete |
| admin_users_api.dfy | `UsersApi` | `POST /api/admin/users` |
| auth_cache.dfy | `AuthCache` | the `useAuth` hook's session and profile cache |
| navbar.dfy | `Navbar` | dashboard routing, auth links and link weights |
| lifecycle.dfy | `Lifecycle` | the whole workflow as one state machine, with the theorem that its invariants survive any run |

Conventions:

- The backend hands out serial row ids, so rows sit in insertion order with
  ids ascending. An `order('created_at', { ascending: false })` listing is
  modelled as the reversed table, and "newest first" is stated as "ids
  strictly descending".
- One `nextId` counter serves every table.
- Prices are integers in minor currency units.
- A `Number(…)` conversion of form input is an `Option<int>`, where `None`
  stands for a value that is not a number.
- User ids are strings and row ids are naturals.

## Model

| member | source | states |
|---|---|---|
| AdminInventory.Offered | src/app/admin/inventory/page.tsx:263-272 | Pending offers only Accepted and Rejected, and Accepted offers only Collected. Every offered status is further along the lifecycle. Completed and Pending are never offered, Collected is offered exactly from Accepted, and Rejected and Collected offer nothing. |
| AdminInventory.AutoStockRow | src/app/admin/inventory/page.tsx:78-85 | The automatic stock row is named after the e-waste type, or "Collected Item" when that is empty. Its quantity is the request's quantity, or 1 when that is 0 or not a number. Its price is 0 and its source is the request. |
| AdminInventory.Fetch | src/app/admin/inventory/page.tsx:19-39 | Both local lists hold exactly the backend rows, as many as the backend has. |
| AdminInventory.FetchNewestFirst | src/app/admin/inventory/page.tsx:22-30 | On a well-formed store both re-fetched lists are newest first. |
| AdminInventory.UpdateStatus | src/app/admin/inventory/page.tsx:54-107 | A failed status write changes nothing and raises the failure dialog. After a successful write only rows with that id change status, and one audit entry (id, new status, "admin") is appended exactly when its insert succeeds. A stock row from the request is inserted exactly for Collected with a successful insert. A failed stock insert is reported but not undone, and every other successful write raises no dialog. The local view gains a stock row on every Collected, and no other table changes. |
| AdminInventory.CollectedButNotStocked | src/app/admin/inventory/page.tsx:76-103 | When the stock insert fails, the request is Collected with no stock row from it in the backend, while the page shows one more stock row from it. |
| AdminInventory.HistoryAppendOnly | src/app/admin/inventory/page.tsx:69-74 | The audit log keeps its old entries as a prefix. It grows by exactly one entry per successful status write whose audit insert succeeds, and that entry names the request and the new status. |
| AdminInventory.DoubleCollect | src/app/admin/inventory/page.tsx:54-107 | Two Recycle clicks from one page snapshot create two stock rows from one request. |
| AdminInventory.ManualAdd | src/app/admin/inventory/page.tsx:109-145 | On success the backend gains exactly a stock row with no source request and the given name, quantity and price, and that row is prepended to the local stock. On failure nothing changes. |
| AdminInventory.UpdatePrice | src/app/admin/inventory/page.tsx:147-155 | On success only the price of rows with that id changes, and the view is re-fetched. On failure only the dialog appears. |
| AdminInventory.Delete | src/app/admin/inventory/page.tsx:157-162 | A declined confirmation does nothing. On success no row of the chosen table keeps that id, every other row of that table stays, and no new row appears. Other tables are untouched, so nothing cascades. |
| Marketplace.Listing | src/app/company/marketplace/page.tsx:25-31 | The listing holds exactly the stock rows with a positive quantity. |
| Marketplace.OrderEnabled | src/app/company/marketplace/page.tsx:126-128 | The order button is enabled exactly when the row has stock and no order for it is in flight. |
| Marketplace.OrderId | src/app/company/marketplace/page.tsx:39 | The order id is "ORD-" followed by one to six digits. |
| Marketplace.OrderIdDigits | src/app/company/marketplace/page.tsx:39 | From a six-digit clock onwards the id is "ORD-" and the clock's last six digits, zero-padded, whose value is the clock modulo 10^6. |
| Marketplace.OrderIdCollision | src/app/company/marketplace/page.tsx:39 | Clock readings 10^6 ms apart give the same order id. |
| Marketplace.NewOrder | src/app/company/marketplace/page.tsx:42-52 | A new order is for one unit at the row's price, with the total equal to quantity times price. It is Requested, placed by the current company, and points at the row. |
| Marketplace.PlaceOrder | src/app/company/marketplace/page.tsx:33-71 | A declined confirmation or a failed order insert changes nothing. A successful insert appends exactly the new order. After that, a failed decrement leaves the stock as it was. A successful decrement writes the snapshot's quantity minus one to rows with that id only, and re-fetches the listing. |
| Marketplace.LostUpdate | src/app/company/marketplace/page.tsx:56-60 | Two purchases from one listing snapshot record two orders but leave the row at the snapshot's quantity minus one. |
| Marketplace.PlaceOrderAtomic | src/app/company/marketplace/page.tsx:42-62 | The corrected purchase decrements a row with that id only while it has stock. It records an order only when a row was decremented and the insert succeeded, so a failed insert after the decrement leaves a unit sold with no order. A quantity never goes below zero. |
| Marketplace.AtomicStep | src/app/company/marketplace/page.tsx:56-60 | One corrected purchase sells a unit exactly when one is left. |
| Marketplace.AtomicOrdersNeverLoseDecrement | src/app/company/marketplace/page.tsx:56-60 | Two corrected purchases lower the stock by as many units as they record orders. |
| CustomerRequest.DatePart | src/app/customer/request/page.tsx:27 | The date part has no dashes and at most ten characters. |
| CustomerRequest.DatePartDigits | src/app/customer/request/page.tsx:27 | For an ISO timestamp the date part is YYYYMMDD: eight digits. |
| CustomerRequest.RequestId | src/app/customer/request/page.tsx:26-29 | A request id starts with "EW-". |
| CustomerRequest.RequestIdLayout | src/app/customer/request/page.tsx:26-29 | For an ISO timestamp the request id is 16 characters: "EW-", YYYYMMDD, "-", and four digits whose value is 1000 plus the random draw, so it lies in 1000..9999. |
| CustomerRequest.UploadPath | src/app/customer/request/page.tsx:34-35 | The upload path lies in the user's folder: it starts with the user id and "/". |
| CustomerRequest.UploadPathExtension | src/app/customer/request/page.tsx:34-35 | The path's extension is the file name's last dot-segment, and it is the whole name when the name has no dot. |
| CustomerRequest.NewRequest | src/app/customer/request/page.tsx:51-64 | A new request is Pending and belongs to the current user, with the form's type and quantity and the given id and image URL. |
| CustomerRequest.Submit | src/app/customer/request/page.tsx:20-77 | Without a user nothing happens. A failed upload stores nothing. A request is appended exactly when the upload (if any) and the insert succeed, and only then does the page move to the customer dashboard. The image URL is "" without a file. A failed insert raises the error dialog, and an uploaded object stays behind. |
| Inbox.Fetch | src/app/admin/messages/page.tsx:28-46 | The All tab lists every message. Any other tab lists exactly the messages with that status. |
| Inbox.FetchNewestFirst | src/app/admin/messages/page.tsx:33 | On a well-formed store every tab lists newest first. |
| Inbox.Refresh | src/app/admin/messages/page.tsx:39-46 | A failed read keeps the shown list. A successful one shows exactly the tab's listing. |
| Inbox.Actions | src/app/admin/messages/page.tsx:237-257 | Mark as read is offered exactly for unread messages. Archive is offered exactly for non-archived ones, unread included. Delete is always offered. |
| Inbox.OfferedActionsMoveForward | src/app/admin/messages/page.tsx:237-257 | Every offered status change moves a message strictly forward, so nothing returns to unread. |
| Inbox.MarkAsRead | src/app/admin/messages/page.tsx:74-91 | On success only messages with that id become read, with the time and the admin recorded. The shown card also becomes read with a second clock reading, and keeps its old reader. On failure only the dialog appears. |
| Inbox.ArchiveMessage | src/app/admin/messages/page.tsx:93-104 | On success only messages with that id become archived, and only that id leaves the shown list. On failure nothing changes. |
| Inbox.DeleteMessage | src/app/admin/messages/page.tsx:106-119 | A declined confirmation does nothing. On success only that id leaves the table and the shown list. On failure nothing changes. |
| Inbox.HandlersKeepWellFormed | src/app/admin/messages/page.tsx:74-119 | The three handlers keep the store well formed. |
| Inbox.DroppedOnRefetch | src/app/admin/messages/page.tsx:28-91 | After mark-as-read, a re-fetch of the Unread tab no longer lists the message. |
| Inbox.MarkedReadLingersOnUnreadTab | src/app/admin/messages/page.tsx:74-91 | On the Unread tab, a message marked read stays on screen as read until the next re-fetch drops it. |
| CustomerDashboard.Tally | src/app/customer/dashboard/page.tsx:27-36 | The total counts exactly the user's own requests. Pending counts, row by row, the user's Pending requests, and completed counts their Completed or Collected ones. Pending plus completed never exceeds the total. |
| CustomerDashboard.CountOfFilter | src/app/customer/dashboard/page.tsx:33-35 | Filtering the user's rows by a status test counts the same rows as the row-by-row count over the statuses the test accepts. |
| CustomerDashboard.TallyBreakdown | src/app/customer/dashboard/page.tsx:33-35 | The total is pending plus completed plus the user's Accepted or Rejected requests. |
| CustomerDashboard.Check | src/app/customer/dashboard/page.tsx:17-38 | A user is sent to "/" with no counts exactly when the role read fails or their single profile row is not a customer. A failed read keeps the shown counters. Otherwise the shown counters are exactly the user's tally. |
| CustomerDashboard.OthersDoNotCount | src/app/customer/dashboard/page.tsx:27-30 | Another user's request leaves the counters as they were. |
| CustomerDashboard.SubmitRaisesPending | src/app/customer/request/page.tsx:50-66 | A successful submission by the user raises the total and pending by one and leaves completed as it was. |
| CustomerDashboard.DecisionLowersPending | src/app/admin/inventory/page.tsx:263-266 | Accepting or Rejecting one of the user's Pending requests lowers pending by one and keeps the total and completed. |
| CustomerDashboard.StatusMoved | src/app/customer/dashboard/page.tsx:33-35 | When one of the user's requests changes status, the total stays, and pending and completed move by what the change does to that request. |
| CustomerDashboard.CollectedCountsAsCompleted | src/app/customer/dashboard/page.tsx:35 | Collecting one of the user's Accepted requests raises completed by one and keeps the total and pending. |
| CustomerDashboard.Track | src/app/customer/dashboard/page.tsx:64-83 | An empty id clears the panel and nothing else does. A found request is the user's own and has that request id, and it was the only such row. |
| CustomerDashboard.TrackNeverDiscloses | src/app/customer/dashboard/page.tsx:71-82 | Tracking another user's request id reports "not found". |
| CustomerDashboard.TrackFindsOwn | src/app/customer/dashboard/page.tsx:71-82 | The user's only request with that id is found. |
| CustomerDashboard.TrackAmbiguous | src/app/customer/dashboard/page.tsx:71-79 | Two of the user's requests with one id make tracking report "not found". |
| CompanyDashboard.CountOrZero | src/app/company/dashboard/page.tsx:37-40 | A missing count reads as 0. |
| CompanyDashboard.Check | src/app/company/dashboard/page.tsx:17-41 | A user is redirected to "/" exactly when the role read fails or their single profile row is not a company. Otherwise available counts the listed rows and my orders counts the company's own orders, each 0 when its read fails. |
| CompanyDashboard.AvailableAgreesWithListing | src/app/company/dashboard/page.tsx:26-29 | Available plus the out-of-stock rows make up the whole inventory, with the same predicate as the marketplace listing. |
| CompanyDashboard.OrderRaisesMyOrders | src/app/company/dashboard/page.tsx:32-35 | A placed order raises the buyer's count by one and no other company's. |
| Sales.Revenue | src/app/admin/sales/page.tsx:40 | Revenue is 0 without orders and never negative for non-negative totals. |
| Sales.RevenueAppend | src/app/admin/sales/page.tsx:40 | Revenue is additive over concatenation. |
| Sales.RevenueReverse | src/app/admin/sales/page.tsx:23-40 | Listing order does not change revenue. |
| Sales.RevenueByCompany | src/app/admin/sales/page.tsx:16-40 | Revenue over all companies is one company's revenue plus everyone else's. |
| Sales.FetchOrders | src/app/admin/sales/page.tsx:15-40 | A failed read keeps the shown orders. A successful one lists every order newest first. The revenue shown is always the total of the orders shown, so after a success it is that of all orders. |
| Sales.ReportNewestFirst | src/app/admin/sales/page.tsx:23 | On a well-formed store the listed ids descend. |
| Sales.OrderRaisesRevenue | src/app/admin/sales/page.tsx:40 | A placed order raises revenue by exactly the row's unit price. |
| AdminDashboard.FetchData | src/app/admin/dashboard/page.tsx:21-41 | Users counts customer profiles and companies counts company profiles, each 0 when its read fails, and together they never exceed the profiles. Requests counts all requests. A failed list read keeps the shown list. |
| AdminDashboard.DeleteEnabled | src/app/admin/dashboard/page.tsx:254-257 | Admin rows never get a delete button. The button is disabled while that user's delete is in flight. |
| AdminDashboard.DeleteUser | src/app/admin/dashboard/page.tsx:78-102 | A declined confirmation or a failed request delete changes nothing. After the request delete none of the user's requests remain and all others do. The profile goes only if its delete succeeds, and only then does the list lose exactly that user and the counts refresh. Stock, orders, audit entries, messages and accounts stay. |
| AdminDashboard.DeletingACustomer | src/app/admin/dashboard/page.tsx:78-95 | Deleting a customer lowers users by one, keeps companies, and lowers requests by exactly that customer's requests. |
| UsersApi.Upsert | src/app/api/admin/users/route.ts:39-47 | After the upsert the profile is present. Every row with its id is that profile, and every row with another id stays. |
| UsersApi.Post | src/app/api/admin/users/route.ts:17-61 | A body that is not JSON gives 500. A missing or empty field gives 400. An account error, or no account returned, gives 500 with nothing created. On success the confirmed account and the upserted profile are created and 200 returns the account. If the profile write fails, the account is deleted again (when that delete succeeds) and 500 is returned. |
| UsersApi.RejectedCreatesNothing | src/app/api/admin/users/route.ts:22-24 | Every 400 leaves the store untouched. |
| UsersApi.CompensationUndoesAccount | src/app/api/admin/users/route.ts:49-53 | A failed profile write with a successful rollback leaves the store exactly as before. |
| UsersApi.FailedCompensationOrphansAccount | src/app/api/admin/users/route.ts:49-53 | When the rollback fails too, an account without a profile is left behind while the caller sees 500. |
| UsersApi.RoleStoredUnchecked | src/app/api/admin/users/route.ts:41-46 | A new user's role is exactly the requested string, whatever it is. |
| Schema.ProfileRow | src/hooks/useAuth.ts:16 | `.single()` returns a row exactly when one profile has that id, and the row has that id. |
| Schema.RoleOf | src/app/customer/dashboard/page.tsx:20 | A role is read only from a profile row of that user, and there is none unless exactly one row exists. |
| Schema.RoleOfOnly | src/app/company/dashboard/page.tsx:19 | The only profile of a user decides its role. |
| AuthCache.FetchProfile | src/hooks/useAuth.ts:14-22 | Exactly when the id is already cached, no query is issued and nothing changes. A returned row fills the cache and remembers the id. A failed or empty read changes nothing. Cache consistency is kept. |
| AuthCache.UpdateProfile | src/hooks/useAuth.ts:24-37 | Without a user the result is "No user logged in" and nothing is written. Otherwise the user's rows are patched. A signed-in user always gets a reply. After a successful write the reply carries the patched table's single row for the user, and reports an error when there is none. The cached profile is replaced only when a row comes back without error, and that row is the user's. |
| AuthCache.UpdatedProfileMatchesStore | src/hooks/useAuth.ts:26-35 | After a successful write, when the patched table has the user's single row, the reply and the cache both hold that row. Otherwise the reply is an error and the session is unchanged. |
| AuthCache.AuthChange | src/hooks/useAuth.ts:55-68 | Loading always ends. A session sets the user and fetches the profile: a cached id keeps the cache, a returned row fills it, and a failed or empty read leaves it as it was. Without a session the user, the profile and the remembered id are cleared, with a redirect to the login page exactly when login is required. |
| AuthCache.InitAuth | src/hooks/useAuth.ts:42-51 | Loading ends, and a stored session's user is taken without any redirect. Its profile is fetched exactly as the listener fetches it. Without a stored session only loading changes. |
| AuthCache.InitAuthAgreesWithListener | src/hooks/useAuth.ts:42-68 | With a stored session, page load reaches the same state as the listener's sign-in event. |
| AuthCache.SignOutForgetsProfile | src/hooks/useAuth.ts:61-64 | After a sign-out, the next sign-in's cached profile is the new user's or none, never the previous user's. |
| AuthCache.Refresh | src/hooks/useAuth.ts:76 | The remembered id is reset, so a signed-in user's profile is always queried. A returned row replaces the cached profile and is remembered. A failed or empty read leaves the session with only its id reset. |
| AuthCache.FetchIsMemoised | src/hooks/useAuth.ts:15-19 | A second fetch right after a successful one issues no query. |
| AuthCache.RefreshAlwaysQueries | src/hooks/useAuth.ts:76 | Where a plain fetch keeps the cached profile without a query, refresh queries and reloads the profile from the table. |
| AuthCache.StaleProfileOnSwitch | src/hooks/useAuth.ts:55-68 | After a user switch whose profile read fails, the previous user's profile stays cached under the new user. |
| Navbar.DashboardLink | src/components/Navbar.tsx:12-16 | The link is always one of the three dashboards: admin exactly for role admin, company exactly for role company, and the customer dashboard otherwise. |
| Navbar.AuthLinks | src/components/Navbar.tsx:49-81 | No auth links while loading. Profile and Dashboard appear with a user, and Login and Join Now without one. |
| Navbar.Weight | src/components/Navbar.tsx:89-97 | An active link weighs 700 and any other weighs 500. |
| Navbar.AtMostOneLinkActive | src/components/Navbar.tsx:41-68 | No pathname makes two of the Home, Recycle, Profile and Login links active, and so bold, at once. |
| Navbar.LinksExclusive | src/components/Navbar.tsx:49-81 | Once loading ends, Login shows exactly without a user and Dashboard exactly with one. |
| Navbar.DashboardFollowsCachedProfile | src/components/Navbar.tsx:12-16 | After a switch with a failed profile read, the Dashboard button follows the previous user's role. |
| Lifecycle.SubmitKeeps | src/app/customer/request/page.tsx:50-66 | A submission keeps both invariants and the audit log. |
| Lifecycle.TransitionKeeps | src/app/admin/inventory/page.tsx:54-107 | An offered transition keeps the serial-id and stock-tracing invariants and only appends to the audit log. |
| Lifecycle.StatusAdvanced | src/app/admin/inventory/page.tsx:76-85 | A Pending or Accepted request has no stock row. After an offered transition it has at most one, and only when it is Collected. |
| Lifecycle.AddStockKeeps | src/app/admin/inventory/page.tsx:118-139 | A manual stock row keeps both invariants. |
| Lifecycle.SetPriceKeeps | src/app/admin/inventory/page.tsx:147-155 | A price change keeps both invariants. |
| Lifecycle.DeleteRowKeeps | src/app/admin/inventory/page.tsx:157-162 | Deleting a request or a stock row keeps both invariants. |
| Lifecycle.BuyKeeps | src/app/company/marketplace/page.tsx:33-71 | A purchase keeps both invariants. |
| Lifecycle.RemoveUserKeeps | src/app/admin/dashboard/page.tsx:78-92 | Deleting a user keeps both invariants. |
| Lifecycle.TransitKeeps | src/app/admin/inventory/page.tsx:263-270 | Pressing a status button, which is shown only for the statuses a row's current status offers, keeps both invariants and only appends to the audit log. |
| Lifecycle.PurchaseKeeps | src/app/company/marketplace/page.tsx:126-132 | Pressing Order Now, which is enabled only while the item has stock, keeps both invariants and leaves the audit log as it was. |
| Lifecycle.StepKeeps | src/app/admin/inventory/page.tsx:263-272 | Every step the handlers allow keeps both invariants and only appends to the audit log. |
| Lifecycle.RunKeeps | src/app/admin/inventory/page.tsx:54-107 | Along any run of offered steps, the ids stay ordered and below the counter. No request before Collected has a stock row, none has two, and no audit entry is rewritten or lost. |

## Left out

- The backend itself: table writes, storage uploads and the identity provider are operations on the store. Each has a success/failure input; errors carry no message text except where the response shows it.
- Realtime subscriptions and channel cleanup: they only re-run the fetches modelled here.
- Concurrency: `Promise.all` and overlapping clicks. The lost update and the double collect are stated as two sequential calls from one snapshot.
- Clocks and randomness (`Date.now`, `toISOString`, `Math.random`): these are parameters. The random draw is a natural below 9000.
- `getPublicUrl`: the public URL of an uploaded path is a function parameter `urlOf`.
- `created_at`: listings are modelled by serial ids in insertion order. One `nextId` counter serves every table, which is a simplification of per-table sequences.
- Floating point: prices and totals are integers in minor units, and `Number(…)` is an `Option<int>`.
- Reads that only fill a screen are modelled as succeeding, except where the failure case is the point (the `|| 0` defaults, `if (data)` guards and the `.single()` errors).
- The admin pages' role checks: none exist in the source, so none are modelled.
- Transitions to Completed and order statuses past Requested: the code never makes them.
- The client-side `handleCreateUser` of the admin dashboard: it only posts to the endpoint modelled by `UsersApi.Post`.
- Presentation-only parts (home page, footer, theme, image carousel, contact form, profile page, login and register pages, read-only listings, inline styles): they hold no workflow logic.
- AuthCache.UpdateProfile: the patch covers the name, email and role only. An update that rewrites the primary key `id` is not modelled.
- AdminInventory.Fetch: the re-fetched stock list is the whole table. Its local insert of `Date.now()` ids is modelled by the `localId` parameter only.
- Lifecycle.StepKeeps: a step is taken from a freshly fetched page, with the transition's row and the purchased row read from the store. Steps from stale snapshots are covered by `AdminInventory.DoubleCollect`, which gives one request two stock rows and so breaks stock tracing, and by `Marketplace.LostUpdate`, which keeps both invariants but records more orders than units removed.

## Findings

| source | as written | input that shows it | evidently intended | confidence | as-written member | corrected member |
|---|---|---|---|---|---|---|
| src/app/company/marketplace/page.tsx:56-60 | The decrement writes `item.qty - 1` taken from the buyer's listing snapshot, not a server-side decrement. | Two purchases from one listing of a row with quantity 5 record two orders and leave quantity 4. | Each recorded order lowers the stock by one unit, and never below zero. | high by proof, not executed | Marketplace.LostUpdate | Marketplace.AtomicOrdersNeverLoseDecrement |

=== FILE: admin_dashboard.dfy ===
/** The admin dashboard (src/app/admin/dashboard/page.tsx): the three head
    counts with their `|| 0` defaults, the user list, and deleting a user with
    their pickup requests. */
module AdminDashboard {
  import opened Base
  import opened Schema

  datatype Stats = Stats(users: nat, companies: nat, requests: nat)

  /** The four reads of `fetchData`; a missing count reads as 0 and a missing
      list keeps the one shown. */
  datatype Reads = Reads(customers: Reply, companies: Reply, requests: Reply, list: Reply)

  datatype Board = Board(stats: Stats, users: seq<Profile>)

  function FetchData(st: Store, shown: seq<Profile>, fetched: Reads): (b: Board)
    ensures b.stats.users == (if fetched.customers.Ok? then |Filter(st.profiles, HasRole("customer"))| else 0)
    ensures b.stats.companies == (if fetched.companies.Ok? then |Filter(st.profiles, HasRole("company"))| else 0)
    ensures b.stats.requests == (if fetched.requests.Ok? then |st.requests| else 0)
    ensures b.stats.users + b.stats.companies <= |st.profiles|
    ensures fetched.list.Failed? ==> b.users == shown
    ensures fetched.list.Ok? ==> |b.users| == |st.profiles| && forall i :: 0 <= i < |st.profiles| ==> st.profiles[i] in b.users
  {
    DisjointFilters(st.profiles, HasRole("customer"), HasRole("company"));
    var users := if fetched.customers.Ok? then |Filter(st.profiles, HasRole("customer"))| else 0;
    var companies := if fetched.companies.Ok? then |Filter(st.profiles, HasRole("company"))| else 0;
    var requests := if fetched.requests.Ok? then |st.requests| else 0;
    Board(Stats(users, companies, requests), if fetched.list.Ok? then Reverse(st.profiles) else shown)
  }

  /** The Delete button: never on an admin row, and disabled while that user's
      deletion is in flight. */
  function DeleteEnabled(p: Profile, deleting: Option<UserId>): (enabled: bool)
    ensures enabled <==> p.role != "admin" && deleting != Some(p.id)
  {
    p.role != "admin" && deleting != Some(p.id)
  }

  datatype Alert = Silent | DeleteError

  datatype Outcome = Outcome(store: Store, board: Board, alert: Alert)

  /** `handleDeleteUser(userId)`: after confirmation delete the user's pickup
      requests, then the profile (a failure stops the sequence and is shown);
      on success drop the user from the shown list and re-run `fetchData`.
      The account itself, stock, orders and audit entries are left alone. */
  function DeleteUser(st: Store, board: Board, u: UserId, confirmed: bool,
                      requestsDelete: Reply, profileDelete: Reply, fetched: Reads): (out: Outcome)
    ensures !confirmed || requestsDelete.Failed? ==>
      out == Outcome(st, board, if confirmed then DeleteError else Silent)
    ensures confirmed && requestsDelete.Ok? ==>
      && out.store.profiles == (if profileDelete.Ok? then Filter(st.profiles, ProfileIsNot(u)) else st.profiles)
      && (forall i :: 0 <= i < |out.store.requests| ==> out.store.requests[i].userId != u)
      && (forall i :: 0 <= i < |out.store.requests| ==> out.store.requests[i] in st.requests)
      && (forall i :: 0 <= i < |st.requests| && st.requests[i].userId != u ==> st.requests[i] in out.store.requests)
      && out.alert == (if profileDelete.Ok? then Silent else DeleteError)
    ensures confirmed && requestsDelete.Ok? && profileDelete.Failed? ==> out.board == board
    ensures confirmed && requestsDelete.Ok? && profileDelete.Ok? ==>
      && out.board.stats == FetchData(out.store, [], fetched).stats
      && (fetched.list.Ok? ==> forall i :: 0 <= i < |out.board.users| ==> out.board.users[i].id != u)
      && (fetched.list.Ok? ==> |out.board.users| == |out.store.profiles|)
      && (fetched.list.Ok? ==> forall i :: 0 <= i < |out.store.profiles| ==> out.store.profiles[i] in out.board.users)
      && (fetched.list.Failed? ==> out.board.users == Filter(board.users, ProfileIsNot(u)))
    ensures out.store.inventory == st.inventory && out.store.orders == st.orders && out.store.history == st.history
    ensures out.store.accounts == st.accounts && out.store.messages == st.messages && out.store.objects == st.objects
    ensures out.store.nextId == st.nextId
  {
    if !confirmed then Outcome(st, board, Silent)
    else if requestsDelete.Failed? then Outcome(st, board, DeleteError)
    else
      var cleared := st.(requests := Filter(st.requests, NotOwnedBy(u)));
      if profileDelete.Failed? then Outcome(cleared, board, DeleteError)
      else
        var removed := cleared.(profiles := Filter(st.profiles, ProfileIsNot(u)));
        var local := Filter(board.users, ProfileIsNot(u));
        Outcome(removed, FetchData(removed, local, fetched), Silent)
  }

  /** Deleting a customer with one profile row lowers the customer count by
      one, keeps the company count, and lowers the request count by exactly
      that customer's requests. */
  lemma DeletingACustomer(st: Store, board: Board, u: UserId, k: int)
    requires 0 <= k < |st.profiles| && st.profiles[k].id == u && st.profiles[k].role == "customer"
    requires forall i :: 0 <= i < |st.profiles| && i != k ==> st.profiles[i].id != u
    ensures var s := DeleteUser(st, board, u, true, Ok, Ok, Reads(Ok, Ok, Ok, Ok)).board.stats;
      && s.users == |Filter(st.profiles, HasRole("customer"))| - 1
      && s.companies == |Filter(st.profiles, HasRole("company"))|
      && s.requests == |st.requests| - |Filter(st.requests, OwnedBy(u))|
  {
    FilterDropOne(st.profiles, ProfileIsNot(u), HasRole("customer"), k);
    FilterDropOne(st.profiles, ProfileIsNot(u), HasRole("company"), k);
    FilterSplit(st.requests, OwnedBy(u), NotOwnedBy(u));
  }
}

=== FILE: admin_inventory.dfy ===
/** The admin inventory page (src/app/admin/inventory/page.tsx): the pickup
    request status transitions with their audit entry and automatic stock row,
    and the manual stock operations. Every remote call is an explicit `Reply`,
    so partially completed handlers are visible in the results. */
module AdminInventory {
  import opened Base
  import opened Schema

  /** The page's local copies of the two tables. */
  datatype View = View(requests: seq<PickupRequest>, stock: seq<InventoryItem>)

  /** The blocking dialog a handler raises, if any. */
  datatype Alert = Silent | UpdateFailed | CollectedNotStocked | AddFailed | PriceUpdateFailed | DeleteFailed

  /** What a handler leaves behind: the backend, the page's view, the dialog. */
  datatype Outcome = Outcome(store: Store, view: View, alert: Alert)

  /** The replies to the three writes of one status update, in call order. */
  datatype StatusCalls = StatusCalls(statusWrite: Reply, historyInsert: Reply, inventoryInsert: Reply)

  /** The two tables the delete button works on. */
  datatype Table = PickupRequests | Inventory

  /** Position of a status along the lifecycle; offered transitions only move forward. */
  function Stage(s: RequestStatus): nat {
    match s
    case Pending => 0
    case Accepted => 1
    case Rejected => 2
    case Collected => 2
    case Completed => 3
  }

  /** The status buttons rendered for a request in status `s`. */
  function Offered(s: RequestStatus): (r: set<RequestStatus>)
    ensures forall t :: t in r ==> Stage(t) > Stage(s)
    ensures Completed !in r && Pending !in r
    ensures Accepted in r <==> s == Pending
    ensures Rejected in r <==> s == Pending
    ensures Collected in r <==> s == Accepted
    ensures r == {} <==> !(s == Pending || s == Accepted)
  {
    match s
    case Pending => {Accepted, Rejected}
    case Accepted => {Collected}
    case _ => {}
  }

  function WithStatus(s: RequestStatus): PickupRequest -> PickupRequest {
    (r: PickupRequest) => r.(status := s)
  }

  function WithPrice(price: int): InventoryItem -> InventoryItem {
    (i: InventoryItem) => i.(pricePerUnit := price)
  }

  /** The stock row a Collected transition creates from the request snapshot
      `item`: `ewaste_type || "Collected Item"`, `Number(qty) || 1`, price 0. */
  function AutoStockRow(id: nat, item: PickupRequest, rowId: nat): (row: InventoryItem)
    ensures row.id == rowId && row.sourceRequestId == Some(id) && row.pricePerUnit == 0
    ensures row.itemName != "" && row.qty != 0
    ensures item.ewasteType != "" ==> row.itemName == item.ewasteType
    ensures item.ewasteType == "" ==> row.itemName == "Collected Item"
    ensures item.qty.Some? && item.qty.value != 0 ==> row.qty == item.qty.value
    ensures item.qty.None? || item.qty.value == 0 ==> row.qty == 1
  {
    var name := if item.ewasteType != "" then item.ewasteType else "Collected Item";
    var qty := match item.qty
      case Some(n) => if n != 0 then n else 1
      case None => 1;
    InventoryItem(rowId, name, qty, 0, Some(id))
  }

  /** `fetchData`: both tables, newest first. */
  function Fetch(st: Store): (v: View)
    ensures |v.requests| == |st.requests| && |v.stock| == |st.inventory|
    ensures forall i :: 0 <= i < |v.requests| ==> v.requests[i] in st.requests
    ensures forall i :: 0 <= i < |v.stock| ==> v.stock[i] in st.inventory
    ensures forall i :: 0 <= i < |st.requests| ==> st.requests[i] in v.requests
    ensures forall i :: 0 <= i < |st.inventory| ==> st.inventory[i] in v.stock
  {
    View(Reverse(st.requests), Reverse(st.inventory))
  }

  /** On a well-formed store the re-fetched lists are newest first. */
  lemma FetchNewestFirst(st: Store)
    requires WellFormed(st)
    ensures Descending(Fetch(st).requests, RequestKey)
    ensures Descending(Fetch(st).stock, ItemKey)
  {
    ReverseDescending(st.requests, RequestKey);
    ReverseDescending(st.inventory, ItemKey);
  }

  /** `handleStatusUpdate(id, newStatus, item)`: write the status; on success
      append the audit entry (its reply is not checked) and, for Collected,
      insert the stock row (its failure is reported but not rolled back); then
      patch the local view, which gains a stock row on Collected either way.
      `localId` is the `Date.now()` id the local stock row gets. */
  function UpdateStatus(st: Store, v: View, id: nat, newStatus: RequestStatus, item: PickupRequest,
                        calls: StatusCalls, localId: nat): (out: Outcome)
    ensures calls.statusWrite.Failed? ==> out == Outcome(st, v, UpdateFailed)
    ensures calls.statusWrite.Ok? ==>
      && |out.store.requests| == |st.requests|
      && forall i :: 0 <= i < |st.requests| ==>
           out.store.requests[i] == if st.requests[i].id == id then st.requests[i].(status := newStatus) else st.requests[i]
    ensures calls.statusWrite.Ok? ==>
      out.store.history == st.history + (if calls.historyInsert.Ok? then [HistoryEntry(id, newStatus, "admin")] else [])
    ensures calls.statusWrite.Ok? && newStatus == Collected && calls.inventoryInsert.Ok? ==>
      out.store.inventory == st.inventory + [AutoStockRow(id, item, st.nextId)] && out.store.nextId == st.nextId + 1
    ensures !(calls.statusWrite.Ok? && newStatus == Collected && calls.inventoryInsert.Ok?) ==>
      out.store.inventory == st.inventory && out.store.nextId == st.nextId
    ensures out.store.orders == st.orders && out.store.messages == st.messages && out.store.profiles == st.profiles
    ensures out.store.accounts == st.accounts && out.store.objects == st.objects
    ensures out.alert == CollectedNotStocked <==>
      calls.statusWrite.Ok? && newStatus == Collected && calls.inventoryInsert.Failed?
    ensures calls.statusWrite.Ok? && !(newStatus == Collected && calls.inventoryInsert.Failed?) ==> out.alert == Silent
    ensures calls.statusWrite.Ok? ==>
      && out.view.stock == v.stock + (if newStatus == Collected then [AutoStockRow(id, item, localId)] else [])
      && |out.view.requests| == |v.requests|
      && forall i :: 0 <= i < |v.requests| ==>
           out.view.requests[i] == if v.requests[i].id == id then v.requests[i].(status := newStatus) else v.requests[i]
  {
    if calls.statusWrite.Failed? then Outcome(st, v, UpdateFailed)
    else
      var collect := newStatus == Collected;
      var stocked := collect && calls.inventoryInsert.Ok?;
      var store := st.(
        requests := Update(st.requests, RequestIs(id), WithStatus(newStatus)),
        history := st.history + (if calls.historyInsert.Ok? then [HistoryEntry(id, newStatus, "admin")] else []),
        inventory := if stocked then st.inventory + [AutoStockRow(id, item, st.nextId)] else st.inventory,
        nextId := if stocked then st.nextId + 1 else st.nextId);
      var view := View(
        Update(v.requests, RequestIs(id), WithStatus(newStatus)),
        v.stock + (if collect then [AutoStockRow(id, item, localId)] else []));
      Outcome(store, view, if collect && calls.inventoryInsert.Failed? then CollectedNotStocked else Silent)
  }

  /** `handleManualAdd(name, qty, price)`: insert a stock row with no source
      request; on success the returned row is prepended to the local stock. */
  function ManualAdd(st: Store, v: View, name: string, qty: int, price: int, insert: Reply): (out: Outcome)
    ensures insert.Failed? ==> out == Outcome(st, v, AddFailed)
    ensures insert.Ok? ==>
      && out.store == st.(inventory := st.inventory + [InventoryItem(st.nextId, name, qty, price, None)],
                          nextId := st.nextId + 1)
      && out.view == v.(stock := [InventoryItem(st.nextId, name, qty, price, None)] + v.stock)
      && out.alert == Silent
  {
    if insert.Failed? then Outcome(st, v, AddFailed)
    else
      var row := InventoryItem(st.nextId, name, qty, price, None);
      Outcome(st.(inventory := st.inventory + [row], nextId := st.nextId + 1), v.(stock := [row] + v.stock), Silent)
  }

  /** `handleUpdatePrice(invId, price)`: overwrite the price of the matching
      row, then re-fetch; on failure only the dialog appears. */
  function UpdatePrice(st: Store, v: View, invId: nat, price: int, write: Reply): (out: Outcome)
    ensures write.Failed? ==> out == Outcome(st, v, PriceUpdateFailed)
    ensures write.Ok? ==>
      && out.store == st.(inventory := out.store.inventory)
      && |out.store.inventory| == |st.inventory|
      && (forall i :: 0 <= i < |st.inventory| ==>
            out.store.inventory[i] == if st.inventory[i].id == invId then st.inventory[i].(pricePerUnit := price) else st.inventory[i])
      && out.view == Fetch(out.store)
      && out.alert == Silent
  {
    if write.Failed? then Outcome(st, v, PriceUpdateFailed)
    else
      var store := st.(inventory := Update(st.inventory, ItemIs(invId), WithPrice(price)));
      Outcome(store, Fetch(store), Silent)
  }

  /** `handleDelete(table, id)`: after confirmation delete the matching rows of
      one table and re-fetch. No cascade: stock rows and audit entries of a
      deleted request stay. */
  function Delete(st: Store, v: View, table: Table, id: nat, confirmed: bool, write: Reply): (out: Outcome)
    ensures !confirmed ==> out == Outcome(st, v, Silent)
    ensures confirmed && write.Failed? ==> out == Outcome(st, v, DeleteFailed)
    ensures confirmed && write.Ok? && table == PickupRequests ==>
      && out.store == st.(requests := out.store.requests)
      && (forall i :: 0 <= i < |out.store.requests| ==> out.store.requests[i].id != id)
      && (forall i :: 0 <= i < |st.requests| && st.requests[i].id != id ==> st.requests[i] in out.store.requests)
      && (forall i :: 0 <= i < |out.store.requests| ==> out.store.requests[i] in st.requests)
    ensures confirmed && write.Ok? && table == Inventory ==>
      && out.store == st.(inventory := out.store.inventory)
      && (forall i :: 0 <= i < |out.store.inventory| ==> out.store.inventory[i].id != id)
      && (forall i :: 0 <= i < |st.inventory| && st.inventory[i].id != id ==> st.inventory[i] in out.store.inventory)
      && (forall i :: 0 <= i < |out.store.inventory| ==> out.store.inventory[i] in st.inventory)
    ensures confirmed && write.Ok? ==> out.view == Fetch(out.store) && out.alert == Silent
  {
    if !confirmed then Outcome(st, v, Silent)
    else if write.Failed? then Outcome(st, v, DeleteFailed)
    else
      var store := match table
        case PickupRequests => st.(requests := Filter(st.requests, RequestIsNot(id)))
        case Inventory => st.(inventory := Filter(st.inventory, ItemIsNot(id)));
      Outcome(store, Fetch(store), Silent)
  }

  /** A Collected transition whose stock insert fails leaves the request
      Collected with no stock row from it in the backend, while the page shows
      a stock row from it. */
  lemma CollectedButNotStocked(st: Store, v: View, id: nat, item: PickupRequest, localId: nat)
    requires StockFrom(st.inventory, id) == []
    ensures var out := UpdateStatus(st, v, id, Collected, item, StatusCalls(Ok, Ok, Failed), localId);
      && (forall i :: 0 <= i < |out.store.requests| && out.store.requests[i].id == id ==>
            out.store.requests[i].status == Collected)
      && StockFrom(out.store.inventory, id) == []
      && |StockFrom(out.view.stock, id)| == |StockFrom(v.stock, id)| + 1
      && out.alert == CollectedNotStocked
  {
    var out := UpdateStatus(st, v, id, Collected, item, StatusCalls(Ok, Ok, Failed), localId);
    FilterAppend(v.stock, [AutoStockRow(id, item, localId)], SourcedFrom(id));
    assert [AutoStockRow(id, item, localId)][..0] == [];
  }

  /** The audit log only grows, by exactly one entry per successful status
      write whose audit insert succeeds, and that entry names the request and
      the new status. */
  lemma HistoryAppendOnly(st: Store, v: View, id: nat, newStatus: RequestStatus, item: PickupRequest,
                          calls: StatusCalls, localId: nat)
    ensures var h := UpdateStatus(st, v, id, newStatus, item, calls, localId).store.history;
      && h[..|st.history|] == st.history
      && |h| == |st.history| + (if calls.statusWrite.Ok? && calls.historyInsert.Ok? then 1 else 0)
      && (|h| > |st.history| ==> h[|h| - 1] == HistoryEntry(id, newStatus, "admin"))
  {
  }

  /** Two Collected transitions issued from the same page snapshot (the Recycle
      button is not disabled while a transition is in flight) create two stock
      rows from one request. */
  lemma DoubleCollect(st: Store, v: View, id: nat, item: PickupRequest, localId: nat)
    ensures var once := UpdateStatus(st, v, id, Collected, item, StatusCalls(Ok, Ok, Ok), localId);
      var twice := UpdateStatus(once.store, v, id, Collected, item, StatusCalls(Ok, Ok, Ok), localId);
      |StockFrom(twice.store.inventory, id)| == |StockFrom(st.inventory, id)| + 2
  {
    var r1 := AutoStockRow(id, item, st.nextId);
    var r2 := AutoStockRow(id, item, st.nextId + 1);
    FilterAppend(st.inventory, [r1], SourcedFrom(id));
    FilterAppend(st.inventory + [r1], [r2], SourcedFrom(id));
    assert [r1][..0] == [] && [r2][..0] == [];
  }
}

=== FILE: admin_messages.dfy ===
/** The admin inbox of contact-form messages (src/app/admin/messages/page.tsx):
    the tabbed listing, the per-message buttons, and the three handlers.
    Clock readings and the admin's user id are inputs. */
module Inbox {
  import opened Base
  import opened Schema

  /** The filter tabs: every message, or only those in one status. */
  datatype Tab = All | Only(status: MessageStatus)

  function Shows(tab: Tab): ContactMessage -> bool {
    (m: ContactMessage) => tab.All? || m.status == tab.status
  }

  /** `fetchMessages`: the messages the tab selects, newest first. */
  function Fetch(st: Store, tab: Tab): (r: seq<ContactMessage>)
    ensures forall i :: 0 <= i < |r| ==> r[i] in st.messages
    ensures tab.Only? ==> forall i :: 0 <= i < |r| ==> r[i].status == tab.status
    ensures forall i :: 0 <= i < |st.messages| && (tab.All? || st.messages[i].status == tab.status) ==>
      st.messages[i] in r
    ensures tab.All? ==> |r| == |st.messages|
  {
    var shown := Filter(st.messages, Shows(tab));
    if tab.All? then
      FilterAll(st.messages, Shows(tab));
      Reverse(shown)
    else Reverse(shown)
  }

  /** On a well-formed store the listing is newest first. */
  lemma FetchNewestFirst(st: Store, tab: Tab)
    requires WellFormed(st)
    ensures Descending(Fetch(st, tab), MessageKey)
  {
    FilterAscending(st.messages, Shows(tab), MessageKey);
    ReverseDescending(Filter(st.messages, Shows(tab)), MessageKey);
  }

  /** A fetch whose select fails logs and keeps the list already shown. */
  function Refresh(st: Store, tab: Tab, shown: seq<ContactMessage>, read: Reply): (r: seq<ContactMessage>)
    ensures read.Failed? ==> r == shown
    ensures read.Ok? ==> r == Fetch(st, tab)
    ensures read.Ok? ==> forall i :: 0 <= i < |r| ==> r[i] in st.messages
  {
    if read.Failed? then shown else Fetch(st, tab)
  }

  /** The buttons a message card shows. */
  datatype Action = MarkRead | Archive | Remove

  function Actions(m: ContactMessage): (r: set<Action>)
    ensures MarkRead in r <==> m.status == Unread
    ensures Archive in r <==> m.status != Archived
    ensures Remove in r
  {
    (if m.status == Unread then {MarkRead} else {})
      + (if m.status != Archived then {Archive} else {})
      + {Remove}
  }

  /** How far a message has moved through the inbox. */
  function Rank(s: MessageStatus): nat {
    match s
    case Unread => 0
    case Read => 1
    case Archived => 2
  }

  /** The status an offered button moves a message to (Remove deletes it). */
  function Target(a: Action): Option<MessageStatus> {
    match a
    case MarkRead => Some(Read)
    case Archive => Some(Archived)
    case Remove => None
  }

  /** Every button the page offers moves a message strictly forward, so no
      offered action ever returns a message to Unread. */
  lemma OfferedActionsMoveForward(m: ContactMessage, a: Action)
    requires a in Actions(m) && Target(a).Some?
    ensures Rank(Target(a).value) > Rank(m.status)
    ensures Target(a).value != Unread
  {
  }

  datatype Alert = Silent | MarkFailed | ArchiveFailed | DeleteFailed

  /** The backend after a handler, the list the page shows, and the dialog. */
  datatype Outcome = Outcome(store: Store, shown: seq<ContactMessage>, alert: Alert)

  function Stamped(admin: UserId, now: nat): ContactMessage -> ContactMessage {
    (m: ContactMessage) => m.(status := Read, readAt := Some(now), readBy := Some(admin))
  }

  function StampedLocally(now: nat): ContactMessage -> ContactMessage {
    (m: ContactMessage) => m.(status := Read, readAt := Some(now))
  }

  function Shelved(m: ContactMessage): ContactMessage {
    m.(status := Archived)
  }

  /** `handleMarkAsRead(id)`: record Read, the time and the admin; on success
      the card shows Read and a second clock reading, and keeps its old
      `readBy`. The list is not re-filtered. */
  function MarkAsRead(st: Store, shown: seq<ContactMessage>, id: nat, admin: UserId,
                      now: nat, localNow: nat, write: Reply): (out: Outcome)
    ensures write.Failed? ==> out == Outcome(st, shown, MarkFailed)
    ensures write.Ok? ==>
      && out.store == st.(messages := out.store.messages)
      && |out.store.messages| == |st.messages|
      && (forall i :: 0 <= i < |st.messages| ==>
            out.store.messages[i] == if st.messages[i].id == id
              then st.messages[i].(status := Read, readAt := Some(now), readBy := Some(admin))
              else st.messages[i])
      && |out.shown| == |shown|
      && (forall i :: 0 <= i < |shown| ==>
            out.shown[i] == if shown[i].id == id
              then shown[i].(status := Read, readAt := Some(localNow))
              else shown[i])
      && out.alert == Silent
  {
    if write.Failed? then Outcome(st, shown, MarkFailed)
    else
      Outcome(st.(messages := Update(st.messages, MessageIs(id), Stamped(admin, now))),
              Update(shown, MessageIs(id), StampedLocally(localNow)), Silent)
  }

  /** `handleArchive(id)`: record Archived (the read stamp stays); on success
      the card leaves the list whatever the tab. */
  function ArchiveMessage(st: Store, shown: seq<ContactMessage>, id: nat, write: Reply): (out: Outcome)
    ensures write.Failed? ==> out == Outcome(st, shown, ArchiveFailed)
    ensures write.Ok? ==>
      && out.store == st.(messages := out.store.messages)
      && |out.store.messages| == |st.messages|
      && (forall i :: 0 <= i < |st.messages| ==>
            out.store.messages[i] == if st.messages[i].id == id
              then st.messages[i].(status := Archived)
              else st.messages[i])
      && (forall i :: 0 <= i < |out.shown| ==> out.shown[i].id != id && out.shown[i] in shown)
      && (forall i :: 0 <= i < |shown| && shown[i].id != id ==> shown[i] in out.shown)
      && out.alert == Silent
  {
    if write.Failed? then Outcome(st, shown, ArchiveFailed)
    else
      Outcome(st.(messages := Update(st.messages, MessageIs(id), Shelved)),
              Filter(shown, MessageIsNot(id)), Silent)
  }

  /** `handleDelete(id)`: after confirmation delete the message; on success
      the card leaves the list. */
  function DeleteMessage(st: Store, shown: seq<ContactMessage>, id: nat, confirmed: bool, write: Reply): (out: Outcome)
    ensures !confirmed ==> out == Outcome(st, shown, Silent)
    ensures confirmed && write.Failed? ==> out == Outcome(st, shown, DeleteFailed)
    ensures confirmed && write.Ok? ==>
      && out.store == st.(messages := out.store.messages)
      && (forall i :: 0 <= i < |out.store.messages| ==> out.store.messages[i].id != id && out.store.messages[i] in st.messages)
      && (forall i :: 0 <= i < |st.messages| && st.messages[i].id != id ==> st.messages[i] in out.store.messages)
      && (forall i :: 0 <= i < |out.shown| ==> out.shown[i].id != id && out.shown[i] in shown)
      && (forall i :: 0 <= i < |shown| && shown[i].id != id ==> shown[i] in out.shown)
      && out.alert == Silent
  {
    if !confirmed then Outcome(st, shown, Silent)
    else if write.Failed? then Outcome(st, shown, DeleteFailed)
    else
      Outcome(st.(messages := Filter(st.messages, MessageIsNot(id))), Filter(shown, MessageIsNot(id)), Silent)
  }

  /** The three handlers keep the serial-id invariant of the store. */
  lemma HandlersKeepWellFormed(st: Store, shown: seq<ContactMessage>, id: nat, admin: UserId,
                               now: nat, localNow: nat, confirmed: bool, write: Reply)
    requires WellFormed(st)
    ensures WellFormed(MarkAsRead(st, shown, id, admin, now, localNow, write).store)
    ensures WellFormed(ArchiveMessage(st, shown, id, write).store)
    ensures WellFormed(DeleteMessage(st, shown, id, confirmed, write).store)
  {
    MarkKeepsWellFormed(st, shown, id, admin, now, localNow, write);
    ArchiveKeepsWellFormed(st, shown, id, write);
    DeleteKeepsWellFormed(st, shown, id, confirmed, write);
  }

  lemma MarkKeepsWellFormed(st: Store, shown: seq<ContactMessage>, id: nat, admin: UserId,
                            now: nat, localNow: nat, write: Reply)
    requires WellFormed(st)
    ensures WellFormed(MarkAsRead(st, shown, id, admin, now, localNow, write).store)
  {
    UpdateAscending(st.messages, MessageIs(id), Stamped(admin, now), MessageKey);
  }

  lemma ArchiveKeepsWellFormed(st: Store, shown: seq<ContactMessage>, id: nat, write: Reply)
    requires WellFormed(st)
    ensures WellFormed(ArchiveMessage(st, shown, id, write).store)
  {
    UpdateAscending(st.messages, MessageIs(id), Shelved, MessageKey);
  }

  lemma DeleteKeepsWellFormed(st: Store, shown: seq<ContactMessage>, id: nat, confirmed: bool, write: Reply)
    requires WellFormed(st)
    ensures WellFormed(DeleteMessage(st, shown, id, confirmed, write).store)
  {
    FilterAscending(st.messages, MessageIsNot(id), MessageKey);
  }

  /** A fetch of the Unread tab after a successful mark-as-read does not list `id`. */
  lemma DroppedOnRefetch(st: Store, shown: seq<ContactMessage>, id: nat, admin: UserId, now: nat, localNow: nat)
    ensures var again := Fetch(MarkAsRead(st, shown, id, admin, now, localNow, Ok).store, Only(Unread));
      forall k :: 0 <= k < |again| ==> again[k].id != id
  {
    var out := MarkAsRead(st, shown, id, admin, now, localNow, Ok);
    var again := Fetch(out.store, Only(Unread));
    forall k | 0 <= k < |again| ensures again[k].id != id {
      var n :| 0 <= n < |out.store.messages| && out.store.messages[n] == again[k];
      assert again[k].status == Unread;
    }
  }

  /** On the Unread tab a message marked read stays listed, now showing Read,
      until the next fetch drops it: the page and a fresh fetch disagree. */
  lemma MarkedReadLingersOnUnreadTab(st: Store, id: nat, admin: UserId, now: nat, localNow: nat)
    requires exists i :: 0 <= i < |st.messages| && st.messages[i].id == id && st.messages[i].status == Unread
    ensures var out := MarkAsRead(st, Fetch(st, Only(Unread)), id, admin, now, localNow, Ok);
      && (exists j :: 0 <= j < |out.shown| && out.shown[j].id == id && out.shown[j].status == Read)
      && (forall k :: 0 <= k < |Fetch(out.store, Only(Unread))| ==> Fetch(out.store, Only(Unread))[k].id != id)
  {
    var shown := Fetch(st, Only(Unread));
    var i :| 0 <= i < |st.messages| && st.messages[i].id == id && st.messages[i].status == Unread;
    var j :| 0 <= j < |shown| && shown[j] == st.messages[i];
    var out := MarkAsRead(st, shown, id, admin, now, localNow, Ok);
    assert out.shown[j].id == id && out.shown[j].status == Read;
    DroppedOnRefetch(st, shown, id, admin, now, localNow);
  }
}

=== FILE: admin_sales.dfy ===
/** The sales report (src/app/admin/sales/page.tsx): every company's orders,
    newest first, and the total revenue folded over them. */
module Sales {
  import opened Base
  import opened Schema
  import Marketplace

  /** `orders.reduce((sum, ord) => sum + Number(ord.total_price), 0)`, with
      totals already integral minor units. */
  function Revenue(orders: seq<Order>): (total: int)
    ensures orders == [] ==> total == 0
    ensures (forall i :: 0 <= i < |orders| ==> orders[i].totalPrice >= 0) ==> total >= 0
    decreases |orders|
  {
    if |orders| == 0 then 0
    else Revenue(orders[..|orders| - 1]) + orders[|orders| - 1].totalPrice
  }

  /** Revenue is additive over concatenation. */
  lemma {:induction false} RevenueAppend(a: seq<Order>, b: seq<Order>)
    ensures Revenue(a + b) == Revenue(a) + Revenue(b)
    decreases |b|
  {
    if |b| > 0 {
      var b' := b[..|b| - 1];
      assert (a + b)[..|a + b| - 1] == a + b';
      RevenueAppend(a, b');
    } else {
      assert a + b == a;
    }
  }

  /** The order the rows are listed in does not change the total. */
  lemma {:induction false} RevenueReverse(s: seq<Order>)
    ensures Revenue(Reverse(s)) == Revenue(s)
    decreases |s|
  {
    if |s| > 0 {
      var s' := s[..|s| - 1];
      assert Reverse(s) == [s[|s| - 1]] + Reverse(s');
      RevenueAppend([s[|s| - 1]], Reverse(s'));
      RevenueReverse(s');
      assert [s[|s| - 1]][..0] == [];
    }
  }

  /** The total is the company's share plus everyone else's: no company's
      orders are left out. */
  lemma {:induction false} RevenueByCompany(s: seq<Order>, c: UserId)
    ensures Revenue(s) == Revenue(Filter(s, PlacedBy(c))) + Revenue(Filter(s, NotPlacedBy(c)))
    decreases |s|
  {
    if |s| > 0 {
      var s' := s[..|s| - 1];
      var last := s[|s| - 1];
      RevenueByCompany(s', c);
      RevenueAppend(Filter(s', PlacedBy(c)), [last]);
      RevenueAppend(Filter(s', NotPlacedBy(c)), [last]);
      assert [last][..0] == [];
    }
  }

  /** The report: on a successful read the orders newest first; a failed read
      keeps the rows already shown. The total is recomputed from the rows. */
  datatype Report = Report(orders: seq<Order>, totalRevenue: int)

  function FetchOrders(st: Store, shown: seq<Order>, read: Reply): (r: Report)
    ensures read.Failed? ==> r.orders == shown
    ensures r.totalRevenue == Revenue(r.orders)
    ensures read.Ok? ==> |r.orders| == |st.orders| && r.totalRevenue == Revenue(st.orders)
    ensures read.Ok? ==> forall i :: 0 <= i < |r.orders| ==> r.orders[i] == st.orders[|st.orders| - 1 - i]
  {
    if read.Ok? then
      RevenueReverse(st.orders);
      Report(Reverse(st.orders), Revenue(Reverse(st.orders)))
    else Report(shown, Revenue(shown))
  }

  /** On a well-formed store the report lists orders newest first. */
  lemma ReportNewestFirst(st: Store, shown: seq<Order>)
    requires WellFormed(st)
    ensures Descending(FetchOrders(st, shown, Ok).orders, OrderKey)
  {
    ReverseDescending(st.orders, OrderKey);
  }

  /** A successful purchase raises the revenue by exactly the item's unit
      price, which is the order's total. */
  lemma OrderRaisesRevenue(st: Store, listing: seq<InventoryItem>, company: UserId,
                           item: InventoryItem, now: nat, decrement: Reply)
    ensures var after := Marketplace.PlaceOrder(st, listing, company, item, true, now, Ok, decrement).store;
      Revenue(after.orders) == Revenue(st.orders) + item.pricePerUnit
  {
    var o := Marketplace.NewOrder(st.nextId, company, item, now);
    RevenueAppend(st.orders, [o]);
    assert [o][..0] == [];
  }
}

=== FILE: admin_users_api.dfy ===
/** The admin user-creation endpoint (src/app/api/admin/users/route.ts):
    validate the body, create a confirmed account, upsert its profile, and
    delete the account again when the profile write fails. The identity
    provider's and the table's replies are inputs. */
module UsersApi {
  import opened Base
  import opened Schema

  /** The JSON body's four fields; `None` is a missing field. */
  datatype Body = Body(email: Option<string>, password: Option<string>, fullName: Option<string>, role: Option<string>)

  /** JavaScript truthiness of an optional string: present and non-empty. */
  predicate Given(f: Option<string>) {
    f.Some? && f.value != ""
  }

  predicate Complete(b: Body) {
    Given(b.email) && Given(b.password) && Given(b.fullName) && Given(b.role)
  }

  /** What the identity provider's `createUser` returns. */
  datatype Creation = Created(id: UserId) | AuthError(message: string) | NoUserReturned

  /** What the profile upsert returns. */
  datatype Write = Written | WriteError(message: string)

  datatype Payload = ErrorBody(error: string) | SuccessBody(user: Account)

  datatype Response = Response(status: nat, payload: Payload)

  /** Insert-or-replace on the primary key `id`. */
  function Upsert(profiles: seq<Profile>, p: Profile): (r: seq<Profile>)
    ensures forall i :: 0 <= i < |r| && r[i].id != p.id ==> r[i] in profiles
    ensures forall i :: 0 <= i < |profiles| && profiles[i].id != p.id ==> profiles[i] in r
    ensures forall i :: 0 <= i < |r| && r[i].id == p.id ==> r[i] == p
    ensures exists i :: 0 <= i < |r| && r[i] == p
  {
    if |Filter(profiles, ProfileIs(p.id))| > 0 then
      var r := Update(profiles, ProfileIs(p.id), (_: Profile) => p);
      var q := Filter(profiles, ProfileIs(p.id))[0];
      var k :| 0 <= k < |profiles| && profiles[k] == q;
      assert r[k] == p;
      r
    else
      var r := profiles + [p];
      assert r[|profiles|] == p;
      r
  }

  /** `POST /api/admin/users`. `body` is `None` when the request body is not
      JSON (the catch-all answers 500); `rollback` is the reply of the
      compensating account delete, which the route does not check. */
  function Post(st: Store, body: Option<Body>, creation: Creation, upsert: Write, rollback: Reply,
                parseMessage: string): (out: (Store, Response))
    ensures body.None? ==> out == (st, Response(500, ErrorBody(parseMessage)))
    ensures body.Some? && !Complete(body.value) ==> out == (st, Response(400, ErrorBody("Missing required fields")))
    ensures body.Some? && Complete(body.value) && creation.AuthError? ==>
      out == (st, Response(500, ErrorBody(creation.message)))
    ensures body.Some? && Complete(body.value) && creation.NoUserReturned? ==>
      out == (st, Response(500, ErrorBody("Failed to create user object")))
    ensures body.Some? && Complete(body.value) && creation.Created? ==>
      var b := body.value;
      var account := Account(creation.id, b.email.value, b.fullName.value, true);
      && (upsert.WriteError? ==>
            && out.1 == Response(500, ErrorBody(upsert.message))
            && out.0.profiles == st.profiles
            && out.0.accounts == (if rollback.Ok? then Filter(st.accounts + [account], AccountIsNot(creation.id))
                                  else st.accounts + [account]))
      && (upsert.Written? ==>
            && out.1 == Response(200, SuccessBody(account))
            && out.0.accounts == st.accounts + [account]
            && out.0.profiles == Upsert(st.profiles, Profile(creation.id, b.email.value, b.fullName.value, b.role.value)))
    ensures out.0.requests == st.requests && out.0.inventory == st.inventory && out.0.orders == st.orders
    ensures out.0.history == st.history && out.0.messages == st.messages && out.0.objects == st.objects
    ensures out.0.nextId == st.nextId
  {
    if body.None? then (st, Response(500, ErrorBody(parseMessage)))
    else
      var b := body.value;
      if !Complete(b) then (st, Response(400, ErrorBody("Missing required fields")))
      else
        match creation
        case AuthError(m) => (st, Response(500, ErrorBody(m)))
        case NoUserReturned => (st, Response(500, ErrorBody("Failed to create user object")))
        case Created(id) =>
          var account := Account(id, b.email.value, b.fullName.value, true);
          var created := st.(accounts := st.accounts + [account]);
          match upsert
          case WriteError(m) =>
            var undone := if rollback.Ok? then created.(accounts := Filter(created.accounts, AccountIsNot(id))) else created;
            (undone, Response(500, ErrorBody(m)))
          case Written =>
            (created.(profiles := Upsert(st.profiles, Profile(id, b.email.value, b.fullName.value, b.role.value))),
             Response(200, SuccessBody(account)))
  }

  /** Only a complete body reaches the identity provider: every 400 leaves the
      accounts and profiles as they were. */
  lemma RejectedCreatesNothing(st: Store, body: Body, creation: Creation, upsert: Write, rollback: Reply, m: string)
    requires !Complete(body)
    ensures var (after, resp) := Post(st, Some(body), creation, upsert, rollback, m);
      resp.status == 400 && after == st
  {
  }

  /** When the compensating delete succeeds on a fresh account id, a failed
      profile write leaves no account behind. */
  lemma CompensationUndoesAccount(st: Store, body: Body, id: UserId, message: string, m: string)
    requires Complete(body)
    requires forall i :: 0 <= i < |st.accounts| ==> st.accounts[i].id != id
    ensures Post(st, Some(body), Created(id), WriteError(message), Ok, m).0 == st
  {
    var account := Account(id, body.email.value, body.fullName.value, true);
    FilterAppend(st.accounts, [account], AccountIsNot(id));
    FilterAll(st.accounts, AccountIsNot(id));
    assert [account][..0] == [];
  }

  /** When the compensating delete fails too, an account without a profile
      is left behind while the caller sees a 500. */
  lemma FailedCompensationOrphansAccount(st: Store, body: Body, id: UserId, message: string, m: string)
    requires Complete(body)
    ensures var (after, resp) := Post(st, Some(body), Created(id), WriteError(message), Failed, m);
      && resp.status == 500
      && after.profiles == st.profiles
      && |after.accounts| == |st.accounts| + 1 && after.accounts[|st.accounts|].id == id
  {
  }

  /** Any non-empty role string is stored as given: for a new user the
      profile's role is exactly the requested one, whether or not it is one of
      customer, company or admin. */
  lemma RoleStoredUnchecked(st: Store, body: Body, id: UserId, m: string)
    requires Complete(body)
    requires forall i :: 0 <= i < |st.profiles| ==> st.profiles[i].id != id
    ensures RoleOf(Post(st, Some(body), Created(id), Written, Ok, m).0.profiles, id) == Some(body.role.value)
  {
    var p := Profile(id, body.email.value, body.fullName.value, body.role.value);
    var r := Upsert(st.profiles, p);
    FilterNone(st.profiles, ProfileIs(id));
    assert r == st.profiles + [p];
    RoleOfOnly(r, id, |st.profiles|);
  }
}

=== FILE: auth_cache.dfy ===
/** The session and profile cache of the `useAuth` hook (src/hooks/useAuth.ts):
    the signed-in user, the cached profile, the loading flag, and the id whose
    profile is cached, which suppresses repeated profile queries. */
module AuthCache {
  import opened Base
  import opened Schema

  datatype Session = Session(user: Option<UserId>, profile: Option<Profile>, loading: bool, fetchedId: Option<UserId>)

  /** The hook's state before anything has happened. */
  const Initial := Session(None, None, true, None)

  /** The cache invariant: a remembered id always comes with that user's
      profile. */
  predicate Consistent(s: Session) {
    s.fetchedId.Some? ==> s.profile.Some? && s.profile.value.id == s.fetchedId.value
  }

  /** The result of a profile fetch: the state after it and whether a query
      was issued. */
  datatype Fetched = Fetched(session: Session, queried: bool)

  /** `fetchProfile(uid)`: nothing when `uid` is already cached; otherwise one
      query, and the cache is filled only when exactly one row comes back. */
  function FetchProfile(s: Session, st: Store, uid: UserId, read: Reply): (f: Fetched)
    ensures s.fetchedId == Some(uid) <==> !f.queried
    ensures !f.queried ==> f.session == s
    ensures f.session.user == s.user && f.session.loading == s.loading
    ensures f.queried && read.Ok? && ProfileRow(st.profiles, uid).Some? ==>
      f.session.fetchedId == Some(uid) && f.session.profile == ProfileRow(st.profiles, uid)
    ensures f.queried && (read.Failed? || ProfileRow(st.profiles, uid).None?) ==> f.session == s
    ensures Consistent(s) ==> Consistent(f.session)
  {
    if s.fetchedId == Some(uid) then Fetched(s, false)
    else
      var data := if read.Ok? then ProfileRow(st.profiles, uid) else None;
      match data
      case Some(p) => Fetched(s.(profile := Some(p), fetchedId := Some(uid)), true)
      case None => Fetched(s, true)
  }

  /** The fields the profile form may change; the primary key is not one. */
  datatype Patch = Patch(fullName: Option<string>, email: Option<string>, role: Option<string>)

  function Patched(patch: Patch): Profile -> Profile {
    (p: Profile) => p.(fullName := if patch.fullName.Some? then patch.fullName.value else p.fullName,
                       email := if patch.email.Some? then patch.email.value else p.email,
                       role := if patch.role.Some? then patch.role.value else p.role)
  }

  /** What `updateProfile` resolves to. */
  datatype UpdateResult = NoUserLoggedIn | Replied(data: Option<Profile>, failed: bool)

  datatype Updated = Updated(store: Store, session: Session, result: UpdateResult)

  /** `updateProfile(updates)`: refused without a user; otherwise patch the
      user's profile rows and read the row back with `.single()`; the cached
      profile is replaced only when a row came back and there was no error. */
  function UpdateProfile(s: Session, st: Store, patch: Patch, write: Reply): (u: Updated)
    ensures s.user.None? ==> u == Updated(st, s, NoUserLoggedIn)
    ensures s.user.Some? && write.Failed? ==> u.store == st && u.session == s && u.result == Replied(None, true)
    ensures s.user.Some? && write.Ok? ==>
      && u.store == st.(profiles := Update(st.profiles, ProfileIs(s.user.value), Patched(patch)))
      && (u.result.Replied? && u.result.data.Some? && !u.result.failed ==>
            u.session == s.(profile := u.result.data) && u.result.data.value.id == s.user.value)
      && (u.result.Replied? && u.result.data.None? ==> u.session == s && u.result.failed)
    ensures s.user.Some? ==> u.result.Replied?
    ensures s.user.Some? && write.Ok? ==>
      u.result == Replied(ProfileRow(u.store.profiles, s.user.value), ProfileRow(u.store.profiles, s.user.value).None?)
    ensures u.session.profile != s.profile ==> u.result.Replied? && u.result.data.Some? && !u.result.failed
    ensures u.session.user == s.user && u.session.fetchedId == s.fetchedId && u.session.loading == s.loading
  {
    match s.user
    case None => Updated(st, s, NoUserLoggedIn)
    case Some(uid) =>
      if write.Failed? then Updated(st, s, Replied(None, true))
      else
        var profiles := Update(st.profiles, ProfileIs(uid), Patched(patch));
        var row := ProfileRow(profiles, uid);
        var store := st.(profiles := profiles);
        match row
        case Some(p) => Updated(store, s.(profile := Some(p)), Replied(row, false))
        case None => Updated(store, s, Replied(None, true))
  }

  datatype Changed = Changed(session: Session, redirect: Option<string>)

  /** The auth-state listener: with a session, remember the user and fetch the
      profile; without one, forget everything and, on pages that require a
      login, go to the customer login page. Either way loading ends. */
  function AuthChange(s: Session, st: Store, session: Option<UserId>, requireAuth: bool, read: Reply): (c: Changed)
    ensures !c.session.loading
    ensures session.Some? ==> c.session.user == session && c.redirect.None?
    ensures session.None? ==>
      && c.session == Session(None, None, false, None)
      && (c.redirect == Some("/customer/login") <==> requireAuth)
      && (!requireAuth ==> c.redirect.None?)
    ensures session.Some? && s.fetchedId == session ==>
      c.session.profile == s.profile && c.session.fetchedId == s.fetchedId
    ensures session.Some? && s.fetchedId != session && read.Ok? && ProfileRow(st.profiles, session.value).Some? ==>
      c.session.profile == ProfileRow(st.profiles, session.value) && c.session.fetchedId == session
    ensures session.Some? && s.fetchedId != session && (read.Failed? || ProfileRow(st.profiles, session.value).None?) ==>
      c.session.profile == s.profile && c.session.fetchedId == s.fetchedId
    ensures Consistent(s) ==> Consistent(c.session)
  {
    match session
    case Some(uid) =>
      var f := FetchProfile(s.(user := Some(uid)), st, uid, read);
      Changed(f.session.(loading := false), None)
    case None =>
      Changed(Session(None, None, false, None), if requireAuth then Some("/customer/login") else None)
  }

  /** `initAuth`: take the stored session's user, if any, fetch its profile,
      and end loading. Unlike the listener it never redirects. */
  function InitAuth(s: Session, st: Store, session: Option<UserId>, read: Reply): (r: Session)
    ensures !r.loading
    ensures session.Some? ==> r.user == session
    ensures session.None? ==> r == s.(loading := false)
    ensures session.Some? && s.fetchedId == session ==>
      r.profile == s.profile && r.fetchedId == s.fetchedId
    ensures session.Some? && s.fetchedId != session && read.Ok? && ProfileRow(st.profiles, session.value).Some? ==>
      r.profile == ProfileRow(st.profiles, session.value) && r.fetchedId == session
    ensures session.Some? && s.fetchedId != session && (read.Failed? || ProfileRow(st.profiles, session.value).None?) ==>
      r.profile == s.profile && r.fetchedId == s.fetchedId
    ensures Consistent(s) ==> Consistent(r)
  {
    match session
    case Some(uid) => FetchProfile(s.(user := Some(uid)), st, uid, read).session.(loading := false)
    case None => s.(loading := false)
  }

  /** `refreshProfile`: forget the cached id, then fetch for the current user. */
  function Refresh(s: Session, st: Store, read: Reply): (f: Fetched)
    ensures s.user.Some? ==> f.queried
    ensures s.user.Some? && read.Ok? && ProfileRow(st.profiles, s.user.value).Some? ==>
      f.session.profile == ProfileRow(st.profiles, s.user.value) && f.session.fetchedId == s.user
    ensures s.user.Some? && (read.Failed? || ProfileRow(st.profiles, s.user.value).None?) ==>
      f.session == s.(fetchedId := None)
    ensures s.user.None? ==> f.session == s.(fetchedId := None) && !f.queried
    ensures Consistent(s) ==> Consistent(f.session)
  {
    var cleared := s.(fetchedId := None);
    match s.user
    case Some(uid) => FetchProfile(cleared, st, uid, read)
    case None => Fetched(cleared, false)
  }

  /** A second fetch for the same user right after a successful one issues no
      query: the profile is memoised. */
  lemma FetchIsMemoised(s: Session, st: Store, uid: UserId, r1: Reply, r2: Reply)
    requires r1.Ok? && ProfileRow(st.profiles, uid).Some?
    ensures var first := FetchProfile(s, st, uid, r1);
      !FetchProfile(first.session, st, uid, r2).queried
  {
  }

  /** Refreshing undoes the memo: where a plain fetch would keep a stale
      cached profile without a query, a refresh queries and reloads it. */
  lemma RefreshAlwaysQueries(s: Session, st: Store, uid: UserId, read: Reply)
    requires s.user == Some(uid) && s.fetchedId == Some(uid)
    ensures FetchProfile(s, st, uid, read).queried == false
    ensures FetchProfile(s, st, uid, read).session.profile == s.profile
    ensures Refresh(s, st, read).queried
    ensures read.Ok? && ProfileRow(st.profiles, uid).Some? ==>
      Refresh(s, st, read).session.profile == ProfileRow(st.profiles, uid)
  {
  }

  /** When the signed-in user changes and the new profile cannot be read, the
      previous user's profile stays cached under the new user. */
  lemma StaleProfileOnSwitch(s: Session, st: Store, a: UserId, b: UserId)
    requires a != b && s.user == Some(a) && s.fetchedId == Some(a) && Consistent(s)
    ensures var c := AuthChange(s, st, Some(b), false, Failed).session;
      c.user == Some(b) && c.profile.Some? && c.profile.value.id == a
  {
  }

  /** After a successful profile update the cache holds exactly what a fresh
      `.single()` read of the patched table returns. */
  lemma UpdatedProfileMatchesStore(s: Session, st: Store, patch: Patch, write: Reply)
    requires s.user.Some? && write.Ok?
    ensures var u := UpdateProfile(s, st, patch, write);
      var row := ProfileRow(u.store.profiles, s.user.value);
      && (row.Some? ==> u.session.profile == row && u.result == Replied(row, false))
      && (row.None? ==> u.session == s && u.result == Replied(None, true))
  {
  }

  /** Signing out and then in never shows the previous user's profile: the
      profile after the sign-in is the new user's, or none. */
  lemma SignOutForgetsProfile(s: Session, st: Store, b: UserId, requireAuth: bool, r1: Reply, r2: Reply)
    ensures var out := AuthChange(s, st, None, requireAuth, r1).session;
      var c := AuthChange(out, st, Some(b), requireAuth, r2).session;
      c.profile.Some? ==> c.profile.value.id == b
  {
  }

  /** On page load with a stored session, `initAuth` reaches the same state as
      the listener's sign-in event. */
  lemma InitAuthAgreesWithListener(s: Session, st: Store, uid: UserId, requireAuth: bool, read: Reply)
    ensures InitAuth(s, st, Some(uid), read) == AuthChange(s, st, Some(uid), requireAuth, read).session
  {
  }
}

=== FILE: base.dfy ===
/** Generic building blocks shared by every page model: optional values, the
    outcome of a remote call, and the sequence operations that the backend's
    filtered selects, updates and deletes amount to. */
module Base {

  /** A value that may be absent (`null` / `undefined` in the application). */
  datatype Option<T> = None | Some(value: T)

  /** The outcome of one remote call (a table write, an upload, an account call).
      The environment chooses it; the model never decides it. */
  datatype Reply = Ok | Failed

  /** The elements of `s` that satisfy `p`, in their original order:
      the rows a `select … where p` or a `.filter(p)` returns. */
  function Filter<T>(s: seq<T>, p: T -> bool): (r: seq<T>)
    ensures |r| <= |s|
    ensures forall i :: 0 <= i < |r| ==> r[i] in s && p(r[i])
    ensures forall i :: 0 <= i < |s| && p(s[i]) ==> s[i] in r
    decreases |s|
  {
    if |s| == 0 then []
    else if p(s[|s| - 1]) then Filter(s[..|s| - 1], p) + [s[|s| - 1]]
    else Filter(s[..|s| - 1], p)
  }

  /** `s` with every element that satisfies `hit` replaced by `f` of it:
      an `update … where hit` or a `.map(x => hit(x) ? f(x) : x)`. */
  function Update<T>(s: seq<T>, hit: T -> bool, f: T -> T): (r: seq<T>)
    ensures |r| == |s|
    ensures forall i :: 0 <= i < |s| ==> r[i] == (if hit(s[i]) then f(s[i]) else s[i])
    decreases |s|
  {
    if |s| == 0 then []
    else Update(s[..|s| - 1], hit, f) + [if hit(s[|s| - 1]) then f(s[|s| - 1]) else s[|s| - 1]]
  }

  /** `s` back to front: an `order by created_at desc` over rows kept in
      creation order. */
  function Reverse<T>(s: seq<T>): (r: seq<T>)
    ensures |r| == |s|
    ensures forall i :: 0 <= i < |s| ==> r[i] == s[|s| - 1 - i]
    ensures forall i :: 0 <= i < |s| ==> s[i] in r
    decreases |s|
  {
    if |s| == 0 then [] else [s[|s| - 1]] + Reverse(s[..|s| - 1])
  }

  /** Keys strictly increase along `s`. */
  ghost predicate Ascending<T>(s: seq<T>, key: T -> int) {
    forall i, j :: 0 <= i < j < |s| ==> key(s[i]) < key(s[j])
  }

  /** Keys strictly decrease along `s`. */
  ghost predicate Descending<T>(s: seq<T>, key: T -> int) {
    forall i, j :: 0 <= i < j < |s| ==> key(s[i]) > key(s[j])
  }

  lemma {:induction false} FilterAppend<T>(a: seq<T>, b: seq<T>, p: T -> bool)
    ensures Filter(a + b, p) == Filter(a, p) + Filter(b, p)
    decreases |b|
  {
    if |b| == 0 {
      assert a + b == a;
    } else {
      var b' := b[..|b| - 1];
      assert (a + b)[..|a + b| - 1] == a + b';
      assert (a + b)[|a + b| - 1] == b[|b| - 1];
      FilterAppend(a, b', p);
    }
  }

  /** A filter keeps everything when every element passes. */
  lemma {:induction false} FilterAll<T>(s: seq<T>, p: T -> bool)
    requires forall i :: 0 <= i < |s| ==> p(s[i])
    ensures Filter(s, p) == s
    decreases |s|
  {
    if |s| > 0 {
      FilterAll(s[..|s| - 1], p);
      assert s[..|s| - 1] + [s[|s| - 1]] == s;
    }
  }

  /** A filter keeps nothing when no element passes. */
  lemma {:induction false} FilterNone<T>(s: seq<T>, p: T -> bool)
    requires forall i :: 0 <= i < |s| ==> !p(s[i])
    ensures Filter(s, p) == []
    decreases |s|
  {
    if |s| > 0 {
      FilterNone(s[..|s| - 1], p);
    }
  }

  /** Filtering with two predicates that exclude each other never counts an
      element twice. */
  lemma {:induction false} DisjointFilters<T>(s: seq<T>, p: T -> bool, q: T -> bool)
    requires forall i :: 0 <= i < |s| ==> !(p(s[i]) && q(s[i]))
    ensures |Filter(s, p)| + |Filter(s, q)| <= |s|
    decreases |s|
  {
    if |s| > 0 {
      DisjointFilters(s[..|s| - 1], p, q);
    }
  }

  /** Filtering by a predicate and by its negation splits `s` exactly. */
  lemma {:induction false} FilterSplit<T>(s: seq<T>, p: T -> bool, q: T -> bool)
    requires forall i :: 0 <= i < |s| ==> q(s[i]) == !p(s[i])
    ensures |Filter(s, p)| + |Filter(s, q)| == |s|
    decreases |s|
  {
    if |s| > 0 {
      FilterSplit(s[..|s| - 1], p, q);
    }
  }

  /** Filtering twice with the same predicate changes nothing the second time. */
  lemma FilterIdempotent<T>(s: seq<T>, p: T -> bool)
    ensures Filter(Filter(s, p), p) == Filter(s, p)
  {
    var r := Filter(s, p);
    FilterAll(r, p);
  }

  /** Filtering keeps keys ascending: a filter is a subsequence. */
  lemma {:induction false} FilterAscending<T>(s: seq<T>, p: T -> bool, key: T -> int)
    requires Ascending(s, key)
    ensures Ascending(Filter(s, p), key)
    decreases |s|
  {
    if |s| > 0 {
      var s' := s[..|s| - 1];
      var last := s[|s| - 1];
      assert Ascending(s', key);
      FilterAscending(s', p, key);
      if p(last) {
        var f := Filter(s', p);
        forall i | 0 <= i < |f| ensures key(f[i]) < key(last) {
          var k :| 0 <= k < |s'| && s'[k] == f[i];
          assert s[k] == f[i];
        }
      }
    }
  }

  /** Reversing turns ascending keys into descending ones. */
  lemma ReverseDescending<T>(s: seq<T>, key: T -> int)
    requires Ascending(s, key)
    ensures Descending(Reverse(s), key)
  {
    var r := Reverse(s);
    forall i, j | 0 <= i < j < |r| ensures key(r[i]) > key(r[j]) {
      assert r[i] == s[|s| - 1 - i] && r[j] == s[|s| - 1 - j];
    }
  }

  /** Reversal and filtering commute. */
  lemma {:induction false} FilterReverse<T>(s: seq<T>, p: T -> bool)
    ensures Filter(Reverse(s), p) == Reverse(Filter(s, p))
    decreases |s|
  {
    if |s| > 0 {
      var s' := s[..|s| - 1];
      var last := s[|s| - 1];
      assert Reverse(s) == [last] + Reverse(s');
      FilterAppend([last], Reverse(s'), p);
      FilterReverse(s', p);
      assert Filter([last], p) == (if p(last) then [last] else []) by {
        assert [last][..0] == [];
      }
      if p(last) {
        var f := Filter(s', p);
        assert Filter(s, p) == f + [last];
        assert (f + [last])[..|f + [last]| - 1] == f;
      }
    }
  }
  /** An update that leaves keys alone keeps them ascending. */
  lemma UpdateAscending<T>(s: seq<T>, hit: T -> bool, f: T -> T, key: T -> int)
    requires Ascending(s, key)
    requires forall i :: 0 <= i < |s| && hit(s[i]) ==> key(f(s[i])) == key(s[i])
    ensures Ascending(Update(s, hit, f), key)
  {
    var r := Update(s, hit, f);
    forall i, j | 0 <= i < j < |r| ensures key(r[i]) < key(r[j]) {
      assert key(r[i]) == key(s[i]) && key(r[j]) == key(s[j]);
    }
  }

  /** An update that does not change whether `p` holds keeps the `p`-count. */
  lemma {:induction false} FilterUpdateKeeps<T>(s: seq<T>, hit: T -> bool, f: T -> T, p: T -> bool)
    requires forall i :: 0 <= i < |s| && hit(s[i]) ==> p(f(s[i])) == p(s[i])
    ensures |Filter(Update(s, hit, f), p)| == |Filter(s, p)|
    decreases |s|
  {
    if |s| > 0 {
      var s' := s[..|s| - 1];
      var u := Update(s, hit, f);
      assert u[..|u| - 1] == Update(s', hit, f);
      FilterUpdateKeeps(s', hit, f, p);
    }
  }

  /** An update that hits only the element at `k` changes the `p`-count by
      what it does to that element. */
  lemma {:induction false} FilterUpdateOne<T>(s: seq<T>, hit: T -> bool, f: T -> T, p: T -> bool, k: int)
    requires 0 <= k < |s| && hit(s[k])
    requires forall i :: 0 <= i < |s| && i != k ==> !hit(s[i])
    ensures |Filter(Update(s, hit, f), p)|
      == |Filter(s, p)| - (if p(s[k]) then 1 else 0) + (if p(f(s[k])) then 1 else 0)
    decreases |s|
  {
    var s' := s[..|s| - 1];
    var u := Update(s, hit, f);
    assert u[..|u| - 1] == Update(s', hit, f);
    if k == |s| - 1 {
      FilterUpdateKeeps(s', hit, f, p);
    } else {
      FilterUpdateOne(s', hit, f, p, k);
    }
  }
  /** Three predicates of which every element meets exactly one split `s` exactly. */
  lemma {:induction false} FilterPartition3<T>(s: seq<T>, p: T -> bool, q: T -> bool, o: T -> bool)
    requires forall i :: 0 <= i < |s| ==> (if p(s[i]) then 1 else 0) + (if q(s[i]) then 1 else 0) + (if o(s[i]) then 1 else 0) == 1
    ensures |Filter(s, p)| + |Filter(s, q)| + |Filter(s, o)| == |s|
    decreases |s|
  {
    if |s| > 0 {
      FilterPartition3(s[..|s| - 1], p, q, o);
    }
  }

  /** Filtering commutes with an update that does not change whether `p` holds. */
  lemma {:induction false} FilterUpdateCommute<T>(s: seq<T>, hit: T -> bool, f: T -> T, p: T -> bool)
    requires forall i :: 0 <= i < |s| && hit(s[i]) ==> p(f(s[i])) == p(s[i])
    ensures Filter(Update(s, hit, f), p) == Update(Filter(s, p), hit, f)
    decreases |s|
  {
    if |s| > 0 {
      var s' := s[..|s| - 1];
      var last := s[|s| - 1];
      var u := Update(s, hit, f);
      assert u[..|u| - 1] == Update(s', hit, f);
      FilterUpdateCommute(s', hit, f, p);
      if p(last) {
        var g := Filter(s', p) + [last];
        assert Filter(s, p) == g;
        var ug := Update(g, hit, f);
        assert ug[..|ug| - 1] == Update(Filter(s', p), hit, f);
      }
    }
  }
  /** When only the element at `k` satisfies `p`, the filter is that element. */
  lemma {:induction false} FilterOnly<T>(s: seq<T>, p: T -> bool, k: int)
    requires 0 <= k < |s| && p(s[k])
    requires forall i :: 0 <= i < |s| && i != k ==> !p(s[i])
    ensures Filter(s, p) == [s[k]]
    decreases |s|
  {
    var s' := s[..|s| - 1];
    if k == |s| - 1 {
      FilterNone(s', p);
    } else {
      FilterOnly(s', p, k);
    }
  }
  /** Dropping the one element that fails `keep` lowers every `p`-count by
      what that element contributed. */
  lemma {:induction false} FilterDropOne<T>(s: seq<T>, keep: T -> bool, p: T -> bool, k: int)
    requires 0 <= k < |s| && !keep(s[k])
    requires forall i :: 0 <= i < |s| && i != k ==> keep(s[i])
    ensures |Filter(Filter(s, keep), p)| == |Filter(s, p)| - (if p(s[k]) then 1 else 0)
    decreases |s|
  {
    var s' := s[..|s| - 1];
    var last := s[|s| - 1];
    if k == |s| - 1 {
      FilterAll(s', keep);
    } else {
      FilterDropOne(s', keep, p, k);
      var x := Filter(s', keep);
      assert Filter(s, keep) == x + [last];
      assert (x + [last])[..|x|] == x;
    }
  }
  /** Two equally long sequences whose elements agree on their predicates
      position by position have equally many matches. */
  lemma {:induction false} FilterCountPointwise<T>(s: seq<T>, t: seq<T>, p: T -> bool, q: T -> bool)
    requires |s| == |t|
    requires forall i :: 0 <= i < |s| ==> p(s[i]) == q(t[i])
    ensures |Filter(s, p)| == |Filter(t, q)|
    decreases |s|
  {
    if |s| > 0 {
      FilterCountPointwise(s[..|s| - 1], t[..|t| - 1], p, q);
    }
  }

  /** Replacing elements by ones with the same keys keeps the keys ascending. */
  lemma AscendingPointwise<T>(s: seq<T>, t: seq<T>, key: T -> int)
    requires Ascending(s, key) && |s| == |t|
    requires forall i :: 0 <= i < |s| ==> key(t[i]) == key(s[i])
    ensures Ascending(t, key)
  {
  }

  /** Appending an element above every key keeps the keys ascending. */
  lemma AscendingAppend<T>(s: seq<T>, x: T, key: T -> int)
    requires Ascending(s, key)
    requires forall i :: 0 <= i < |s| ==> key(s[i]) < key(x)
    ensures Ascending(s + [x], key)
  {
  }

  /** Filtering first by another predicate never raises a `p`-count. */
  lemma {:induction false} FilterNestedCount<T>(s: seq<T>, q: T -> bool, p: T -> bool)
    ensures |Filter(Filter(s, q), p)| <= |Filter(s, p)|
    decreases |s|
  {
    if |s| > 0 {
      var s' := s[..|s| - 1];
      var last := s[|s| - 1];
      FilterNestedCount(s', q, p);
      if q(last) {
        var x := Filter(s', q);
        assert Filter(s, q) == x + [last];
        assert (x + [last])[..|x|] == x;
      }
    }
  }
}

=== FILE: company_dashboard.dfy ===
/** The company dashboard (src/app/company/dashboard/page.tsx): the role gate
    and the two head-only counts, each defaulting to 0 when the count is
    missing. */
module CompanyDashboard {
  import opened Base
  import opened Schema
  import Marketplace

  datatype Stats = Stats(available: nat, myOrders: nat)

  /** Either the page sends the user home or it shows the counters. */
  datatype Visit = Redirected(to: string) | Shown(stats: Stats)

  /** `count || 0`: a count that did not come back reads as zero. */
  function CountOrZero(read: Reply, n: nat): (c: nat)
    ensures read.Ok? ==> c == n
    ensures read.Failed? ==> c == 0
  {
    if read.Ok? then n else 0
  }

  /** `checkRoleAndFetchStats`: a user whose profile role is not "company",
      or whose role read fails, goes home before anything is counted;
      otherwise the stock rows with `qty > 0` and the user's own orders are
      counted. */
  function Check(st: Store, u: UserId, roleRead: Reply, stockRead: Reply, orderRead: Reply): (v: Visit)
    ensures RoleOf(st.profiles, u) != Some("company") || roleRead.Failed? <==> v == Redirected("/")
    ensures v.Shown? ==>
      && v.stats.available == (if stockRead.Ok? then |Marketplace.Listing(st.inventory)| else 0)
      && v.stats.myOrders == (if orderRead.Ok? then |Filter(st.orders, PlacedBy(u))| else 0)
      && v.stats.available <= |st.inventory|
      && v.stats.myOrders <= |st.orders|
  {
    if roleRead.Failed? || RoleOf(st.profiles, u) != Some("company") then Redirected("/")
    else
      Shown(Stats(CountOrZero(stockRead, |Marketplace.Listing(st.inventory)|),
                  CountOrZero(orderRead, |Filter(st.orders, PlacedBy(u))|)))
  }

  function OutOfStock(i: InventoryItem): bool {
    i.qty <= 0
  }

  /** The available count and the rows with no stock split the inventory, so
      the card agrees with what the marketplace lists. */
  lemma AvailableAgreesWithListing(st: Store, u: UserId)
    requires RoleOf(st.profiles, u) == Some("company")
    ensures var v := Check(st, u, Ok, Ok, Ok);
      v.Shown? && v.stats.available + |Filter(st.inventory, OutOfStock)| == |st.inventory|
  {
    FilterSplit(st.inventory, Marketplace.InStock, OutOfStock);
  }

  /** The company's own successful purchase raises its order count by one;
      another company's purchase leaves it alone. */
  lemma OrderRaisesMyOrders(st: Store, listing: seq<InventoryItem>, buyer: UserId, u: UserId,
                            item: InventoryItem, now: nat, decrement: Reply)
    ensures var after := Marketplace.PlaceOrder(st, listing, buyer, item, true, now, Ok, decrement).store;
      |Filter(after.orders, PlacedBy(u))| == |Filter(st.orders, PlacedBy(u))| + (if buyer == u then 1 else 0)
  {
    var o := Marketplace.NewOrder(st.nextId, buyer, item, now);
    FilterAppend(st.orders, [o], PlacedBy(u));
    assert [o][..0] == [];
  }
}

=== FILE: customer_dashboard.dfy ===
/** The customer dashboard (src/app/customer/dashboard/page.tsx): the role
    gate, the three request counters, and tracking a request by its
    human-readable id. */
module CustomerDashboard {
  import opened Base
  import opened Schema
  import AdminInventory
  import CustomerRequest

  /** The counters shown on the page. */
  datatype Stats = Stats(total: nat, pending: nat, completed: nat)

  /** Either the page sends the user home or it shows the counters. */
  datatype Visit = Redirected(to: string) | Shown(stats: Stats)

  function IsPending(r: PickupRequest): bool {
    r.status == Pending
  }

  /** Completed counts the legacy Completed status and Collected alike. */
  function IsDone(r: PickupRequest): bool {
    r.status == Completed || r.status == Collected
  }

  function IsUnderway(r: PickupRequest): bool {
    r.status == Accepted || r.status == Rejected
  }

  /** The statuses the pending and the completed counters count. */
  const PendingStatuses: set<RequestStatus> := {Pending}
  const DoneStatuses: set<RequestStatus> := {Completed, Collected}

  /** How many of `u`'s requests have a status in `statuses`, counted row by
      row. */
  function CountOf(s: seq<PickupRequest>, u: UserId, statuses: set<RequestStatus>): nat
    decreases |s|
  {
    if |s| == 0 then 0
    else CountOf(s[..|s| - 1], u, statuses) + (if s[|s| - 1].userId == u && s[|s| - 1].status in statuses then 1 else 0)
  }

  /** Counting the user's rows that pass a status test is counting their rows
      whose status is in the set the test accepts. */
  lemma {:induction false} CountOfFilter(s: seq<PickupRequest>, u: UserId, p: PickupRequest -> bool,
                                         statuses: set<RequestStatus>)
    requires forall r: PickupRequest :: p(r) <==> r.status in statuses
    ensures |Filter(Filter(s, OwnedBy(u)), p)| == CountOf(s, u, statuses)
    decreases |s|
  {
    if |s| > 0 {
      var s', last := s[..|s| - 1], s[|s| - 1];
      CountOfFilter(s', u, p, statuses);
      if last.userId == u {
        var x := Filter(s', OwnedBy(u));
        assert Filter(s, OwnedBy(u)) == x + [last];
        FilterAppend(x, [last], p);
        assert [last][..0] == [];
      }
    }
  }

  /** The counters over the user's own requests: all of them, the Pending
      ones, and the Completed or Collected ones. */
  function Tally(st: Store, u: UserId): (s: Stats)
    ensures s.total == |Filter(st.requests, OwnedBy(u))|
    ensures s.pending == CountOf(st.requests, u, PendingStatuses)
    ensures s.completed == CountOf(st.requests, u, DoneStatuses)
    ensures s.pending + s.completed <= s.total
  {
    var mine := Filter(st.requests, OwnedBy(u));
    DisjointFilters(mine, IsPending, IsDone);
    CountOfFilter(st.requests, u, IsPending, PendingStatuses);
    CountOfFilter(st.requests, u, IsDone, DoneStatuses);
    Stats(|mine|, |Filter(mine, IsPending)|, |Filter(mine, IsDone)|)
  }

  /** The total splits into pending, done, and the accepted or rejected rest. */
  lemma TallyBreakdown(st: Store, u: UserId)
    ensures var s := Tally(st, u);
      s.total == s.pending + s.completed + |Filter(Filter(st.requests, OwnedBy(u)), IsUnderway)|
  {
    FilterPartition3(Filter(st.requests, OwnedBy(u)), IsPending, IsDone, IsUnderway);
  }

  /** `checkRoleAndFetchStats`: users whose profile role is not "customer"
      (including users with no single profile row, and any user whose role
      read fails) go home; a failed requests read keeps the counters already
      shown. */
  function Check(st: Store, u: UserId, roleRead: Reply, prev: Stats, read: Reply): (v: Visit)
    ensures RoleOf(st.profiles, u) != Some("customer") || roleRead.Failed? <==> v == Redirected("/")
    ensures RoleOf(st.profiles, u) == Some("customer") && roleRead.Ok? && read.Failed? ==> v == Shown(prev)
    ensures RoleOf(st.profiles, u) == Some("customer") && roleRead.Ok? && read.Ok? ==>
      v.Shown? && v.stats == Tally(st, u)
  {
    if roleRead.Failed? || RoleOf(st.profiles, u) != Some("customer") then Redirected("/")
    else if read.Failed? then Shown(prev)
    else Shown(Tally(st, u))
  }

  /** Requests of the other users never move this user's counters. */
  lemma OthersDoNotCount(st: Store, u: UserId, r: PickupRequest)
    requires r.userId != u
    ensures Tally(st.(requests := st.requests + [r]), u) == Tally(st, u)
  {
    FilterAppend(st.requests, [r], OwnedBy(u));
    assert Filter([r], OwnedBy(u)) == [] by {
      assert [r][..0] == [];
    }
    assert st.requests + [r] == (st.requests + [r])[..|st.requests|] + [r];
  }

  /** Changing the status of the only row with its id moves each count of
      `u`'s requests by what the change does to that row. */
  lemma {:induction false} CountOfUpdateOne(s: seq<PickupRequest>, u: UserId, k: nat, ns: RequestStatus,
                                            statuses: set<RequestStatus>)
    requires k < |s|
    requires forall i :: 0 <= i < |s| && i != k ==> s[i].id != s[k].id
    ensures CountOf(Update(s, RequestIs(s[k].id), AdminInventory.WithStatus(ns)), u, statuses)
      == CountOf(s, u, statuses) - (if s[k].userId == u && s[k].status in statuses then 1 else 0)
         + (if s[k].userId == u && ns in statuses then 1 else 0)
    decreases |s|
  {
    var hit, f := RequestIs(s[k].id), AdminInventory.WithStatus(ns);
    var s', last := s[..|s| - 1], s[|s| - 1];
    var t := Update(s, hit, f);
    assert t[..|t| - 1] == Update(s', hit, f);
    if k == |s| - 1 {
      assert Update(s', hit, f) == s';
    } else {
      CountOfUpdateOne(s', u, k, ns, statuses);
    }
  }

  /** With ids ascending, row `k` is the only row with its id. */
  lemma IdOnlyAt(s: seq<PickupRequest>, k: nat)
    requires Ascending(s, RequestKey) && k < |s|
    ensures forall i :: 0 <= i < |s| && i != k ==> s[i].id != s[k].id
  {
    forall i | 0 <= i < |s| && i != k ensures s[i].id != s[k].id {
      if s[i].id == s[k].id {
        AscendingUnique(s, RequestKey, i, k);
      }
    }
  }

  /** The counters after the status of one of `u`'s requests changes in the
      requests table, ids being unique: the total stays, and pending and
      completed move by what the change does to that request. */
  lemma StatusMoved(st: Store, after: Store, u: UserId, k: nat, ns: RequestStatus)
    requires Ascending(st.requests, RequestKey) && k < |st.requests| && st.requests[k].userId == u
    requires after.requests == Update(st.requests, RequestIs(st.requests[k].id), AdminInventory.WithStatus(ns))
    ensures var b, a, r := Tally(st, u), Tally(after, u), st.requests[k];
      && a.total == b.total
      && a.pending == b.pending - (if r.status in PendingStatuses then 1 else 0) + (if ns in PendingStatuses then 1 else 0)
      && a.completed == b.completed - (if r.status in DoneStatuses then 1 else 0) + (if ns in DoneStatuses then 1 else 0)
  {
    IdOnlyAt(st.requests, k);
    CountOfUpdateOne(st.requests, u, k, ns, PendingStatuses);
    CountOfUpdateOne(st.requests, u, k, ns, DoneStatuses);
    FilterCountPointwise(st.requests, after.requests, OwnedBy(u), OwnedBy(u));
  }

  /** The admin and the customer agree on the workflow: when the admin marks
      one of this user's Accepted requests Collected, the customer's Completed
      counter rises by one and the others stay. */
  lemma CollectedCountsAsCompleted(st: Store, u: UserId, k: nat, item: PickupRequest,
                                   calls: AdminInventory.StatusCalls, localId: nat)
    requires WellFormed(st) && k < |st.requests|
    requires st.requests[k].userId == u && st.requests[k].status == Accepted
    requires calls.statusWrite.Ok?
    ensures var id := st.requests[k].id;
      var after := AdminInventory.UpdateStatus(st, AdminInventory.Fetch(st), id, Collected, item, calls, localId).store;
      Tally(after, u) == Tally(st, u).(completed := Tally(st, u).completed + 1)
  {
    var id := st.requests[k].id;
    var after := AdminInventory.UpdateStatus(st, AdminInventory.Fetch(st), id, Collected, item, calls, localId).store;
    assert after.requests == Update(st.requests, RequestIs(id), AdminInventory.WithStatus(Collected));
    CollectOwned(st, after, u, k);
  }

  /** The counters after one of the user's Accepted requests becomes Collected
      in the requests table. */
  lemma CollectOwned(st: Store, after: Store, u: UserId, k: nat)
    requires Ascending(st.requests, RequestKey) && k < |st.requests|
    requires st.requests[k].userId == u && st.requests[k].status == Accepted
    requires after.requests == Update(st.requests, RequestIs(st.requests[k].id), AdminInventory.WithStatus(Collected))
    ensures Tally(after, u) == Tally(st, u).(completed := Tally(st, u).completed + 1)
  {
    StatusMoved(st, after, u, k, Collected);
  }

  /** A successful submission by the user raises the total and pending by one
      and leaves completed alone. */
  lemma SubmitRaisesPending(st: Store, u: UserId, form: CustomerRequest.Form, file: Option<string>,
                            iso: string, rand: nat, now: nat, urlOf: string -> string, upload: Reply, insert: Reply)
    requires rand < 9000
    requires (file.None? || upload.Ok?) && insert.Ok?
    ensures var after := CustomerRequest.Submit(st, Some(u), form, file, iso, rand, now, urlOf, upload, insert).store;
      var before := Tally(st, u);
      Tally(after, u) == before.(total := before.total + 1, pending := before.pending + 1)
  {
    var out := CustomerRequest.Submit(st, Some(u), form, file, iso, rand, now, urlOf, upload, insert);
    var r := out.store.requests[|st.requests|];
    assert out.store.requests == st.requests + [r];
    PendingAppended(st, out.store, u, r);
  }

  /** The counters after a Pending request of the user is appended. */
  lemma PendingAppended(st: Store, after: Store, u: UserId, r: PickupRequest)
    requires after.requests == st.requests + [r] && r.userId == u && r.status == Pending
    ensures var before := Tally(st, u);
      Tally(after, u) == before.(total := before.total + 1, pending := before.pending + 1)
  {
    assert (st.requests + [r])[..|st.requests|] == st.requests;
    FilterAppend(st.requests, [r], OwnedBy(u));
    assert [r][..0] == [];
  }

  /** The counters after one of the user's Pending requests is decided
      (Accepted or Rejected) in the requests table. */
  lemma DecideOwned(st: Store, after: Store, u: UserId, k: nat, ns: RequestStatus)
    requires Ascending(st.requests, RequestKey) && k < |st.requests|
    requires st.requests[k].userId == u && st.requests[k].status == Pending
    requires ns == Accepted || ns == Rejected
    requires after.requests == Update(st.requests, RequestIs(st.requests[k].id), AdminInventory.WithStatus(ns))
    ensures Tally(after, u).(pending := Tally(after, u).pending + 1) == Tally(st, u)
  {
    StatusMoved(st, after, u, k, ns);
  }

  /** Accepting or Rejecting one of the user's Pending requests lowers pending
      by one and keeps the total and completed. */
  lemma DecisionLowersPending(st: Store, u: UserId, k: nat, ns: RequestStatus, item: PickupRequest,
                              calls: AdminInventory.StatusCalls, localId: nat)
    requires WellFormed(st) && k < |st.requests|
    requires st.requests[k].userId == u && st.requests[k].status == Pending
    requires ns in AdminInventory.Offered(Pending) && calls.statusWrite.Ok?
    ensures var id := st.requests[k].id;
      var after := AdminInventory.UpdateStatus(st, AdminInventory.Fetch(st), id, ns, item, calls, localId).store;
      Tally(after, u).(pending := Tally(after, u).pending + 1) == Tally(st, u)
  {
    var id := st.requests[k].id;
    var after := AdminInventory.UpdateStatus(st, AdminInventory.Fetch(st), id, ns, item, calls, localId).store;
    assert after.requests == Update(st.requests, RequestIs(id), AdminInventory.WithStatus(ns));
    DecideOwned(st, after, u, k, ns);
  }

  /** The tracking panel: cleared, a found request, or the error line. */
  datatype Tracking = Cleared | Found(request: PickupRequest) | NotFound

  function TrackedBy(u: UserId, requestId: string): PickupRequest -> bool {
    (r: PickupRequest) => r.requestId == requestId && r.userId == u
  }

  /** `handleTrack`: an empty id clears the panel; otherwise the select must
      return exactly one of the user's own requests with that id (`.single()`),
      and anything else (none, several, a failed read) is "not found or
      unauthorized". */
  function Track(st: Store, u: UserId, trackId: string, read: Reply): (t: Tracking)
    ensures trackId == "" <==> t == Cleared
    ensures t.Found? ==> t.request in st.requests && t.request.userId == u && t.request.requestId == trackId
    ensures t.Found? ==> read.Ok? && |Filter(st.requests, TrackedBy(u, trackId))| == 1
  {
    if trackId == "" then Cleared
    else
      var rows := Filter(st.requests, TrackedBy(u, trackId));
      if read.Ok? && |rows| == 1 then Found(rows[0]) else NotFound
  }

  /** Another user's request is never disclosed, whatever id is typed. */
  lemma TrackNeverDiscloses(st: Store, u: UserId, trackId: string, read: Reply)
    requires trackId != ""
    requires forall i :: 0 <= i < |st.requests| && st.requests[i].requestId == trackId ==> st.requests[i].userId != u
    ensures Track(st, u, trackId, read) == NotFound
  {
    FilterNone(st.requests, TrackedBy(u, trackId));
  }

  /** The user's only request with that id is found. */
  lemma TrackFindsOwn(st: Store, u: UserId, trackId: string, k: int)
    requires trackId != "" && 0 <= k < |st.requests|
    requires st.requests[k].requestId == trackId && st.requests[k].userId == u
    requires forall i :: 0 <= i < |st.requests| && i != k ==> !(st.requests[i].requestId == trackId && st.requests[i].userId == u)
    ensures Track(st, u, trackId, Ok) == Found(st.requests[k])
  {
    FilterOnly(st.requests, TrackedBy(u, trackId), k);
  }

  /** Request ids are not unique (same day and the same 4-digit draw): when two
      of the user's requests share one, tracking reports it as not found. */
  lemma TrackAmbiguous(st: Store, u: UserId, trackId: string, i: int, j: int)
    requires trackId != "" && 0 <= i < j < |st.requests|
    requires st.requests[i].requestId == trackId && st.requests[i].userId == u
    requires st.requests[j].requestId == trackId && st.requests[j].userId == u
    ensures Track(st, u, trackId, Ok) == NotFound
  {
    var s := st.requests;
    var p := TrackedBy(u, trackId);
    var a, b := s[..j], s[j..];
    assert s == a + b;
    FilterAppend(a, b, p);
    assert s[i] == a[i] && s[j] == b[0];
  }
}

=== FILE: customer_request.dfy ===
/** The customer pickup request form (src/app/customer/request/page.tsx): the
    human-readable request id, the storage path of an attached photo, and the
    Pending insert. The clock readings, the random draw and the storage
    bucket's public URL function are inputs. */
module CustomerRequest {
  import opened Base
  import opened Schema
  import opened Text

  /** `new Date().toISOString().slice(0, 10).replace(/-/g, '')`. */
  function DatePart(iso: string): (r: string)
    ensures '-' !in r && |r| <= 10
  {
    Without(iso[..if |iso| <= 10 then |iso| else 10], '-')
  }

  /** An ISO timestamp that starts with `YYYY-MM-DD`. */
  predicate IsoDateShaped(iso: string) {
    && |iso| >= 10
    && AllDigits(iso[0..4]) && iso[4] == '-'
    && AllDigits(iso[5..7]) && iso[7] == '-'
    && AllDigits(iso[8..10])
  }

  /** `EW-<date>-<1000 + rand>`, where `rand` is `Math.random() * 9000` rounded down. */
  function RequestId(iso: string, rand: nat): (r: string)
    requires rand < 9000
    ensures |r| >= 3 && r[..3] == "EW-"
  {
    "EW-" + DatePart(iso) + "-" + Decimal(1000 + rand)
  }

  lemma DigitsHaveNoDash(s: string)
    requires AllDigits(s)
    ensures '-' !in s
  {
    assert forall i :: 0 <= i < |s| ==> s[i] != '-';
  }

  /** Removing dashes from a dash-free field followed by one dash leaves the field. */
  lemma WithoutTrailingDash(x: string)
    requires '-' !in x
    ensures Without(x + "-", '-') == x
  {
    WithoutAppend(x, "-", '-');
    WithoutAbsent(x, '-');
    assert Without("-", '-') == [];
  }

  /** Removing dashes from `y-m-d` joins the three dash-free fields. */
  lemma WithoutDateDashes(y: string, m: string, d: string)
    requires '-' !in y && '-' !in m && '-' !in d
    ensures Without(y + "-" + m + "-" + d, '-') == y + m + d
  {
    var a, b := y + "-", m + "-";
    assert y + "-" + m + "-" + d == (a + b) + d;
    WithoutTrailingDash(y);
    WithoutTrailingDash(m);
    WithoutAppend(a + b, d, '-');
    WithoutAppend(a, b, '-');
    WithoutAbsent(d, '-');
  }

  /** The date part of a well-shaped timestamp is its eight date digits. */
  lemma DatePartDigits(iso: string)
    requires IsoDateShaped(iso)
    ensures DatePart(iso) == iso[0..4] + iso[5..7] + iso[8..10]
    ensures |DatePart(iso)| == 8 && AllDigits(DatePart(iso))
  {
    var y, m, d := iso[0..4], iso[5..7], iso[8..10];
    var head := iso[..10];
    assert head == y + "-" + m + "-" + d by {
      assert forall i :: 0 <= i < 10 ==> head[i] == (y + "-" + m + "-" + d)[i];
    }
    assert DatePart(iso) == Without(head, '-');
    DigitsHaveNoDash(y);
    DigitsHaveNoDash(m);
    DigitsHaveNoDash(d);
    WithoutDateDashes(y, m, d);
  }

  /** The request id has the fixed layout `EW-YYYYMMDD-NNNN`, and the trailing
      number reads back as `1000 + rand`, always within [1000, 9999]. */
  lemma RequestIdLayout(iso: string, rand: nat)
    requires rand < 9000 && IsoDateShaped(iso)
    ensures var r := RequestId(iso, rand);
      && |r| == 16
      && r[..3] == "EW-"
      && r[3..11] == iso[0..4] + iso[5..7] + iso[8..10]
      && r[11] == '-'
      && AllDigits(r[12..])
      && Value(r[12..]) == 1000 + rand
      && 1000 <= Value(r[12..]) <= 9999
  {
    var n := 1000 + rand;
    assert Pow10(3) == 1000 && Pow10(4) == 10000;
    DecimalLongEnough(n, 4);
    DecimalShortEnough(n, 4);
    DatePartDigits(iso);
    ValueOfDecimal(n);
    var r := RequestId(iso, rand);
    assert r[12..] == Decimal(n);
  }

  /** `${user.id}/${Date.now()}.${file.name.split('.').pop()}`. */
  function UploadPath(user: UserId, now: nat, fileName: string): (path: string)
    ensures |path| > |user| + 1 && path[..|user| + 1] == user + "/"
  {
    user + "/" + Decimal(now) + "." + AfterLast(fileName, '.')
  }

  /** The path keeps the file's extension: its own last dot-segment is the
      file name's last dot-segment (the whole name when it has no dot). */
  lemma UploadPathExtension(user: UserId, now: nat, fileName: string)
    ensures AfterLast(UploadPath(user, now, fileName), '.') == AfterLast(fileName, '.')
    ensures '.' !in fileName ==> AfterLast(UploadPath(user, now, fileName), '.') == fileName
  {
    AfterLastOfJoin(user + "/" + Decimal(now), '.', AfterLast(fileName, '.'));
  }

  /** The form's fields; `quantity` is `Number(quantity)` (None when not a number). */
  datatype Form = Form(
    wasteType: string,
    description: string,
    quantity: Option<int>,
    pickupAddress: string,
    pickupDate: string,
    pickupTime: string)

  datatype Alert = Silent | Submitted(requestId: string) | SubmitFailed

  /** The backend, the dialog, and where the page navigates to. */
  datatype Outcome = Outcome(store: Store, alert: Alert, redirect: Option<string>)

  /** The inserted row. */
  function NewRequest(rowId: nat, requestId: string, user: UserId, form: Form, imageUrl: string): (r: PickupRequest)
    ensures r.status == Pending && r.userId == user && r.qty == form.quantity
    ensures r.id == rowId && r.requestId == requestId && r.imageUrl == imageUrl && r.ewasteType == form.wasteType
  {
    PickupRequest(rowId, requestId, user, form.wasteType, form.description, form.quantity,
                  form.pickupAddress, form.pickupDate, form.pickupTime, imageUrl, Pending)
  }

  /** `handleSubmit`: nothing without a user; otherwise upload the photo if
      one is attached (a failed upload aborts before the insert), then insert
      the Pending request. An insert failure after a successful upload leaves
      the uploaded object behind. */
  function Submit(st: Store, user: Option<UserId>, form: Form, file: Option<string>,
                  iso: string, rand: nat, now: nat, urlOf: string -> string,
                  upload: Reply, insert: Reply): (out: Outcome)
    requires rand < 9000
    ensures user.None? ==> out == Outcome(st, Silent, None)
    ensures user.Some? && file.Some? && upload.Failed? ==> out == Outcome(st, SubmitFailed, None)
    ensures out.store.objects ==
      st.objects + (if user.Some? && file.Some? && upload.Ok? then [UploadPath(user.value, now, file.value)] else [])
    ensures var inserted := user.Some? && (file.None? || upload.Ok?) && insert.Ok?;
      && (inserted ==>
            && out.store.requests == st.requests +
                 [NewRequest(st.nextId, RequestId(iso, rand), user.value, form,
                             if file.None? then "" else urlOf(UploadPath(user.value, now, file.value)))]
            && out.store.nextId == st.nextId + 1
            && out.alert == Submitted(RequestId(iso, rand))
            && out.redirect == Some("/customer/dashboard"))
      && (!inserted ==> out.store.requests == st.requests && out.store.nextId == st.nextId && out.redirect.None?)
      && (!inserted && user.Some? ==> out.alert == SubmitFailed)
    ensures out.store.inventory == st.inventory && out.store.orders == st.orders && out.store.history == st.history
    ensures out.store.messages == st.messages && out.store.profiles == st.profiles && out.store.accounts == st.accounts
  {
    match user
    case None => Outcome(st, Silent, None)
    case Some(u) =>
      var requestId := RequestId(iso, rand);
      if file.Some? && upload.Failed? then Outcome(st, SubmitFailed, None)
      else
        var uploaded := if file.Some? then st.(objects := st.objects + [UploadPath(u, now, file.value)]) else st;
        var imageUrl := if file.Some? then urlOf(UploadPath(u, now, file.value)) else "";
        if insert.Failed? then Outcome(uploaded, SubmitFailed, None)
        else
          var row := NewRequest(st.nextId, requestId, u, form, imageUrl);
          Outcome(uploaded.(requests := st.requests + [row], nextId := st.nextId + 1),
                  Submitted(requestId), Some("/customer/dashboard"))
  }
}

=== FILE: lifecycle.dfy ===
/** The request / inventory / order workflow as one state machine over the
    store. Every step is a page handler applied the way the page offers it
    when its view is fresh: a status button only for the transitions the
    request's current status offers, Order Now only for a row in stock. Under
    that discipline the serial-id invariant and the stock-tracing invariant
    hold after any run, and the audit log only grows. (`DoubleCollect` in
    `AdminInventory` shows what a stale view breaks.) */
module Lifecycle {
  import opened Base
  import opened Schema
  import CustomerRequest
  import AdminInventory
  import Marketplace
  import AdminDashboard

  /** One user action, with the replies of its remote calls. */
  datatype Action =
    | Submit(user: UserId, form: CustomerRequest.Form, file: Option<string>, iso: string, rand: nat, now: nat,
             upload: Reply, insert: Reply)
    | Transition(id: nat, status: RequestStatus, calls: AdminInventory.StatusCalls, localId: nat)
    | AddStock(name: string, qty: int, price: int, insert: Reply)
    | SetPrice(itemId: nat, price: int, write: Reply)
    | DeleteRow(table: AdminInventory.Table, id: nat, write: Reply)
    | Buy(company: UserId, itemId: nat, now: nat, insert: Reply, decrement: Reply)
    | RemoveUser(user: UserId, requestsDelete: Reply, profileDelete: Reply)

  /** The random draw of a submission is below 9000. */
  predicate Valid(a: Action) {
    a.Submit? ==> a.rand < 9000
  }

  /** The invariant of the workflow. */
  ghost predicate Inv(st: Store) {
    WellFormed(st) && StockTraced(st)
  }

  /** A status button press: the page renders it on the only row with that id,
      and only for a transition that row's status offers. */
  function Transit(st: Store, id: nat, ns: RequestStatus, calls: AdminInventory.StatusCalls, localId: nat): Store {
    var rows := Filter(st.requests, RequestIs(id));
    if |rows| == 1 && ns in AdminInventory.Offered(rows[0].status) then
      AdminInventory.UpdateStatus(st, AdminInventory.Fetch(st), id, ns, rows[0], calls, localId).store
    else st
  }

  /** An Order Now press: the listing renders the only row with that id, and
      the button is enabled only while it has stock. */
  function Purchase(st: Store, company: UserId, itemId: nat, now: nat, insert: Reply, decrement: Reply): Store {
    var rows := Filter(st.inventory, ItemIs(itemId));
    if |rows| == 1 && Marketplace.OrderEnabled(None, rows[0]) then
      Marketplace.PlaceOrder(st, Marketplace.Listing(st.inventory), company, rows[0], true, now, insert, decrement).store
    else st
  }

  /** Applies one action. Buttons the page would not render do nothing. */
  function Step(st: Store, a: Action, urlOf: string -> string): Store
    requires Valid(a)
  {
    match a
    case Submit(u, form, file, iso, rand, now, upload, insert) =>
      CustomerRequest.Submit(st, Some(u), form, file, iso, rand, now, urlOf, upload, insert).store
    case Transition(id, ns, calls, localId) =>
      Transit(st, id, ns, calls, localId)
    case AddStock(name, qty, price, insert) =>
      AdminInventory.ManualAdd(st, AdminInventory.Fetch(st), name, qty, price, insert).store
    case SetPrice(itemId, price, write) =>
      AdminInventory.UpdatePrice(st, AdminInventory.Fetch(st), itemId, price, write).store
    case DeleteRow(table, id, write) =>
      AdminInventory.Delete(st, AdminInventory.Fetch(st), table, id, true, write).store
    case Buy(company, itemId, now, insert, decrement) =>
      Purchase(st, company, itemId, now, insert, decrement)
    case RemoveUser(u, requestsDelete, profileDelete) =>
      var board := AdminDashboard.Board(AdminDashboard.Stats(0, 0, 0), []);
      var fetched := AdminDashboard.Reads(Ok, Ok, Ok, Ok);
      AdminDashboard.DeleteUser(st, board, u, true, requestsDelete, profileDelete, fetched).store
  }

  /** Applies the actions in order. */
  function Run(st: Store, acts: seq<Action>, urlOf: string -> string): Store
    requires forall i :: 0 <= i < |acts| ==> Valid(acts[i])
    decreases |acts|
  {
    if |acts| == 0 then st else Run(Step(st, acts[0], urlOf), acts[1..], urlOf)
  }

  /** `b` starts with `a`. */
  predicate Extends<T(==)>(a: seq<T>, b: seq<T>) {
    |a| <= |b| && b[..|a|] == a
  }

  // ----- the stock-tracing invariant, table by table -----

  /** A stock row that request `rid` is not the source of leaves its count alone. */
  lemma AppendUnsourced(inv: seq<InventoryItem>, row: InventoryItem, rid: nat)
    requires row.sourceRequestId != Some(rid)
    ensures StockFrom(inv + [row], rid) == StockFrom(inv, rid)
  {
    FilterAppend(inv, [row], SourcedFrom(rid));
    assert [row][..0] == [];
  }

  /** Rewriting stock rows without touching their sources keeps the invariant. */
  lemma SourcesKept(reqs: seq<PickupRequest>, inv: seq<InventoryItem>, inv': seq<InventoryItem>)
    requires Traced(reqs, inv) && |inv'| == |inv|
    requires forall i :: 0 <= i < |inv| ==> inv'[i].sourceRequestId == inv[i].sourceRequestId
    ensures Traced(reqs, inv')
  {
    forall i | 0 <= i < |reqs|
      ensures |StockFrom(inv', reqs[i].id)| == |StockFrom(inv, reqs[i].id)|
    {
      FilterCountPointwise(inv, inv', SourcedFrom(reqs[i].id), SourcedFrom(reqs[i].id));
    }
  }

  /** Dropping requests keeps the invariant for the ones left. */
  lemma RequestsDropped(reqs: seq<PickupRequest>, reqs': seq<PickupRequest>, inv: seq<InventoryItem>)
    requires Traced(reqs, inv)
    requires forall i :: 0 <= i < |reqs'| ==> reqs'[i] in reqs
    ensures Traced(reqs', inv)
  {
    forall i | 0 <= i < |reqs'|
      ensures |StockFrom(inv, reqs'[i].id)| <= (if reqs'[i].status.Collected? || reqs'[i].status.Completed? then 1 else 0)
    {
      var j :| 0 <= j < |reqs| && reqs[j] == reqs'[i];
    }
  }

  /** Dropping stock rows only lowers the counts. */
  lemma StockDropped(reqs: seq<PickupRequest>, inv: seq<InventoryItem>, keep: InventoryItem -> bool)
    requires Traced(reqs, inv)
    ensures Traced(reqs, Filter(inv, keep))
  {
    forall i | 0 <= i < |reqs|
      ensures |StockFrom(Filter(inv, keep), reqs[i].id)| <= |StockFrom(inv, reqs[i].id)|
    {
      FilterNestedCount(inv, keep, SourcedFrom(reqs[i].id));
    }
  }

  /** A stock row whose source is none of the requests keeps the invariant. */
  lemma StockAppended(reqs: seq<PickupRequest>, inv: seq<InventoryItem>, row: InventoryItem)
    requires Traced(reqs, inv)
    requires forall i :: 0 <= i < |reqs| ==> row.sourceRequestId != Some(reqs[i].id)
    ensures Traced(reqs, inv + [row])
  {
    forall i | 0 <= i < |reqs|
      ensures StockFrom(inv + [row], reqs[i].id) == StockFrom(inv, reqs[i].id)
    {
      AppendUnsourced(inv, row, reqs[i].id);
    }
  }

  /** An offered transition of the request at `k`: it had no stock row (it was
      Pending or Accepted), and it gains at most one, only by becoming
      Collected. Ids are unique, so no other request is touched. */
  lemma StatusAdvanced(reqs: seq<PickupRequest>, inv: seq<InventoryItem>, reqs': seq<PickupRequest>,
                       inv': seq<InventoryItem>, k: nat, ns: RequestStatus, row: InventoryItem)
    requires Traced(reqs, inv) && Ascending(reqs, RequestKey) && k < |reqs|
    requires reqs[k].status == Pending || reqs[k].status == Accepted
    requires |reqs'| == |reqs|
    requires forall i :: 0 <= i < |reqs| ==>
      reqs'[i] == if reqs[i].id == reqs[k].id then reqs[i].(status := ns) else reqs[i]
    requires inv' == inv || (inv' == inv + [row] && row.sourceRequestId == Some(reqs[k].id) && ns == Collected)
    ensures Traced(reqs', inv')
  {
    var id := reqs[k].id;
    assert |StockFrom(inv, id)| == 0;
    forall i | 0 <= i < |reqs'|
      ensures |StockFrom(inv', reqs'[i].id)| <= (if reqs'[i].status.Collected? || reqs'[i].status.Completed? then 1 else 0)
    {
      if reqs[i].id == id {
        AscendingUnique(reqs, RequestKey, i, k);
        if inv' != inv {
          FilterAppend(inv, [row], SourcedFrom(id));
        }
      } else if inv' != inv {
        AppendUnsourced(inv, row, reqs[i].id);
      }
    }
  }

  // ----- one lemma per kind of step -----

  /** A new request takes the next serial id, which no stock row points at yet. */
  lemma SubmitKeeps(st: Store, u: UserId, form: CustomerRequest.Form, file: Option<string>, iso: string,
                    rand: nat, now: nat, urlOf: string -> string, upload: Reply, insert: Reply)
    requires Inv(st) && rand < 9000
    ensures var out := CustomerRequest.Submit(st, Some(u), form, file, iso, rand, now, urlOf, upload, insert).store;
      Inv(out) && out.history == st.history
  {
    var out := CustomerRequest.Submit(st, Some(u), form, file, iso, rand, now, urlOf, upload, insert).store;
    if out.requests != st.requests {
      var row := out.requests[|st.requests|];
      assert out.requests == st.requests + [row] && row.id == st.nextId && out.nextId == st.nextId + 1;
      AscendingAppend(st.requests, row, RequestKey);
      FilterNone(st.inventory, SourcedFrom(st.nextId));
      assert Traced(out.requests, out.inventory) by {
        forall i | 0 <= i < |out.requests|
          ensures |StockFrom(out.inventory, out.requests[i].id)|
            <= (if out.requests[i].status.Collected? || out.requests[i].status.Completed? then 1 else 0)
        {
          if i < |st.requests| {
            assert out.requests[i] == st.requests[i];
          }
        }
      }
    }
  }

  /** The serial-id invariant after an offered transition. */
  lemma TransitionWellFormed(st: Store, out: Store, k: nat, ns: RequestStatus, row: InventoryItem)
    requires WellFormed(st) && k < |st.requests|
    requires |out.requests| == |st.requests|
    requires forall i :: 0 <= i < |st.requests| ==> out.requests[i].id == st.requests[i].id
    requires || (out.inventory == st.inventory && out.nextId == st.nextId)
             || (&& out.inventory == st.inventory + [row] && out.nextId == st.nextId + 1
                 && row.id == st.nextId && row.sourceRequestId == Some(st.requests[k].id))
    requires out.orders == st.orders && out.messages == st.messages
    ensures WellFormed(out)
  {
    AscendingPointwise(st.requests, out.requests, RequestKey);
    if out.inventory != st.inventory {
      AscendingAppend(st.inventory, row, ItemKey);
    }
  }

  /** The invariant after an offered transition, stated table by table. */
  lemma TransitionInv(st: Store, out: Store, k: nat, ns: RequestStatus, row: InventoryItem)
    requires Inv(st) && k < |st.requests|
    requires st.requests[k].status == Pending || st.requests[k].status == Accepted
    requires |out.requests| == |st.requests|
    requires forall i :: 0 <= i < |st.requests| ==>
      out.requests[i] == if st.requests[i].id == st.requests[k].id then st.requests[i].(status := ns) else st.requests[i]
    requires || (out.inventory == st.inventory && out.nextId == st.nextId)
             || (&& out.inventory == st.inventory + [row] && out.nextId == st.nextId + 1 && ns == Collected
                 && row.id == st.nextId && row.sourceRequestId == Some(st.requests[k].id))
    requires out.orders == st.orders && out.messages == st.messages
    ensures Inv(out)
  {
    TransitionWellFormed(st, out, k, ns, row);
    StatusAdvanced(st.requests, st.inventory, out.requests, out.inventory, k, ns, row);
  }

  /** An offered status transition applied to the request at `k`. */
  lemma TransitionKeeps(st: Store, k: nat, ns: RequestStatus, calls: AdminInventory.StatusCalls, localId: nat)
    requires Inv(st) && k < |st.requests|
    requires ns in AdminInventory.Offered(st.requests[k].status)
    ensures var out := AdminInventory.UpdateStatus(st, AdminInventory.Fetch(st), st.requests[k].id, ns,
                                                   st.requests[k], calls, localId).store;
      Inv(out) && Extends(st.history, out.history)
  {
    var item := st.requests[k];
    var out := AdminInventory.UpdateStatus(st, AdminInventory.Fetch(st), item.id, ns, item, calls, localId).store;
    AdminInventory.HistoryAppendOnly(st, AdminInventory.Fetch(st), item.id, ns, item, calls, localId);
    if calls.statusWrite.Ok? {
      var row := AdminInventory.AutoStockRow(item.id, item, st.nextId);
      assert out.inventory == st.inventory + [row] || out.inventory == st.inventory;
      TransitionInv(st, out, k, ns, row);
    }
  }

  /** A manual stock row has no source request. */
  lemma AddStockKeeps(st: Store, name: string, qty: int, price: int, insert: Reply)
    requires Inv(st)
    ensures var out := AdminInventory.ManualAdd(st, AdminInventory.Fetch(st), name, qty, price, insert).store;
      Inv(out) && out.history == st.history
  {
    if insert.Ok? {
      var row := InventoryItem(st.nextId, name, qty, price, None);
      AscendingAppend(st.inventory, row, ItemKey);
      StockAppended(st.requests, st.inventory, row);
    }
  }

  /** The invariant after stock rows are rewritten in place, keeping their ids
      and sources, and perhaps one order is appended with the next id. */
  lemma StockRewritten(st: Store, out: Store)
    requires Inv(st) && |out.inventory| == |st.inventory|
    requires forall i :: 0 <= i < |st.inventory| ==>
      out.inventory[i].id == st.inventory[i].id && out.inventory[i].sourceRequestId == st.inventory[i].sourceRequestId
    requires out.requests == st.requests && out.messages == st.messages
    requires || (out.orders == st.orders && out.nextId == st.nextId)
             || (|out.orders| == |st.orders| + 1 && out.orders[..|st.orders|] == st.orders
                 && out.orders[|st.orders|].id == st.nextId && out.nextId == st.nextId + 1)
    ensures Inv(out)
  {
    AscendingPointwise(st.inventory, out.inventory, ItemKey);
    SourcesKept(st.requests, st.inventory, out.inventory);
    if out.orders != st.orders {
      assert out.orders == st.orders + [out.orders[|st.orders|]];
      AscendingAppend(st.orders, out.orders[|st.orders|], OrderKey);
    }
  }

  /** A price change keeps ids and sources. */
  lemma SetPriceKeeps(st: Store, itemId: nat, price: int, write: Reply)
    requires Inv(st)
    ensures var out := AdminInventory.UpdatePrice(st, AdminInventory.Fetch(st), itemId, price, write).store;
      Inv(out) && out.history == st.history
  {
    if write.Ok? {
      var out := AdminInventory.UpdatePrice(st, AdminInventory.Fetch(st), itemId, price, write).store;
      assert out == st.(inventory := out.inventory);
      var f := AdminInventory.WithPrice(price);
      assert out.inventory == Update(st.inventory, ItemIs(itemId), f);
      forall i | 0 <= i < |st.inventory|
        ensures out.inventory[i].id == st.inventory[i].id && out.inventory[i].sourceRequestId == st.inventory[i].sourceRequestId
      {
        assert out.inventory[i] == if ItemIs(itemId)(st.inventory[i]) then f(st.inventory[i]) else st.inventory[i];
      }
      StockRewritten(st, out);
    }
  }

  /** The invariant after requests are filtered out. */
  lemma RequestsFiltered(st: Store, out: Store, keep: PickupRequest -> bool)
    requires Inv(st) && out.requests == Filter(st.requests, keep)
    requires out.inventory == st.inventory && out.orders == st.orders && out.messages == st.messages
    requires out.nextId == st.nextId
    ensures Inv(out)
  {
    FilterAscending(st.requests, keep, RequestKey);
    RequestsDropped(st.requests, out.requests, st.inventory);
  }

  /** The invariant after stock rows are filtered out. */
  lemma StockFiltered(st: Store, out: Store, keep: InventoryItem -> bool)
    requires Inv(st) && out.inventory == Filter(st.inventory, keep)
    requires out.requests == st.requests && out.orders == st.orders && out.messages == st.messages
    requires out.nextId == st.nextId
    ensures Inv(out)
  {
    FilterAscending(st.inventory, keep, ItemKey);
    StockDropped(st.requests, st.inventory, keep);
  }

  /** Removing requests keeps the others' counts; removing stock rows only
      lowers them. */
  lemma DeleteRowKeeps(st: Store, table: AdminInventory.Table, id: nat, write: Reply)
    requires Inv(st)
    ensures var out := AdminInventory.Delete(st, AdminInventory.Fetch(st), table, id, true, write).store;
      Inv(out) && out.history == st.history
  {
    if write.Ok? {
      var out := AdminInventory.Delete(st, AdminInventory.Fetch(st), table, id, true, write).store;
      match table
      case PickupRequests =>
        assert out == st.(requests := Filter(st.requests, RequestIsNot(id)));
        RequestsFiltered(st, out, RequestIsNot(id));
      case Inventory =>
        assert out == st.(inventory := Filter(st.inventory, ItemIsNot(id)));
        StockFiltered(st, out, ItemIsNot(id));
    }
  }

  /** A purchase from a fresh listing changes a quantity and appends an order. */
  lemma BuyKeeps(st: Store, company: UserId, item: InventoryItem, now: nat, insert: Reply, decrement: Reply)
    requires Inv(st)
    ensures var out := Marketplace.PlaceOrder(st, Marketplace.Listing(st.inventory), company, item, true, now,
                                              insert, decrement).store;
      Inv(out) && out.history == st.history
  {
    if insert.Ok? {
      var out := Marketplace.PlaceOrder(st, Marketplace.Listing(st.inventory), company, item, true, now,
                                        insert, decrement).store;
      var order := Marketplace.NewOrder(st.nextId, company, item, now);
      var f := Marketplace.WithQty(item.qty - 1);
      var inv := if decrement.Ok? then Update(st.inventory, ItemIs(item.id), f) else st.inventory;
      assert out == st.(orders := st.orders + [order], nextId := st.nextId + 1, inventory := inv);
      forall i | 0 <= i < |st.inventory|
        ensures out.inventory[i].id == st.inventory[i].id && out.inventory[i].sourceRequestId == st.inventory[i].sourceRequestId
      {
        if decrement.Ok? {
          assert out.inventory[i] == if ItemIs(item.id)(st.inventory[i]) then f(st.inventory[i]) else st.inventory[i];
        }
      }
      assert (st.orders + [order])[..|st.orders|] == st.orders;
      StockRewritten(st, out);
    }
  }

  /** Deleting a user's requests keeps every remaining request's count. */
  lemma RemoveUserKeeps(st: Store, u: UserId, requestsDelete: Reply, profileDelete: Reply)
    requires Inv(st)
    ensures var out := AdminDashboard.DeleteUser(st, AdminDashboard.Board(AdminDashboard.Stats(0, 0, 0), []), u, true,
                                                 requestsDelete, profileDelete, AdminDashboard.Reads(Ok, Ok, Ok, Ok)).store;
      Inv(out) && out.history == st.history
  {
    if requestsDelete.Ok? {
      var out := AdminDashboard.DeleteUser(st, AdminDashboard.Board(AdminDashboard.Stats(0, 0, 0), []), u, true,
                                           requestsDelete, profileDelete, AdminDashboard.Reads(Ok, Ok, Ok, Ok)).store;
      RequestsFiltered(st, out, NotOwnedBy(u));
    }
  }

  /** A status button press keeps the invariant and only appends to the log. */
  lemma TransitKeeps(st: Store, id: nat, ns: RequestStatus, calls: AdminInventory.StatusCalls, localId: nat)
    requires Inv(st)
    ensures Inv(Transit(st, id, ns, calls, localId)) && Extends(st.history, Transit(st, id, ns, calls, localId).history)
  {
    var rows := Filter(st.requests, RequestIs(id));
    if |rows| == 1 && ns in AdminInventory.Offered(rows[0].status) {
      var k :| 0 <= k < |st.requests| && st.requests[k] == rows[0];
      TransitionKeeps(st, k, ns, calls, localId);
    } else {
      assert st.history[..|st.history|] == st.history;
    }
  }

  /** An Order Now press keeps the invariant and the log. */
  lemma PurchaseKeeps(st: Store, company: UserId, itemId: nat, now: nat, insert: Reply, decrement: Reply)
    requires Inv(st)
    ensures Inv(Purchase(st, company, itemId, now, insert, decrement))
    ensures Purchase(st, company, itemId, now, insert, decrement).history == st.history
  {
    var rows := Filter(st.inventory, ItemIs(itemId));
    if |rows| == 1 && Marketplace.OrderEnabled(None, rows[0]) {
      BuyKeeps(st, company, rows[0], now, insert, decrement);
    }
  }

  /** Every step keeps the invariant and only ever appends to the audit log. */
  lemma StepKeeps(st: Store, a: Action, urlOf: string -> string)
    requires Inv(st) && Valid(a)
    ensures Inv(Step(st, a, urlOf)) && Extends(st.history, Step(st, a, urlOf).history)
  {
    assert st.history[..|st.history|] == st.history;
    match a
    case Submit(u, form, file, iso, rand, now, upload, insert) =>
      SubmitKeeps(st, u, form, file, iso, rand, now, urlOf, upload, insert);
      assert Step(st, a, urlOf) == CustomerRequest.Submit(st, Some(u), form, file, iso, rand, now, urlOf, upload, insert).store;
    case Transition(id, ns, calls, localId) =>
      TransitKeeps(st, id, ns, calls, localId);
      assert Step(st, a, urlOf) == Transit(st, id, ns, calls, localId);
    case AddStock(name, qty, price, insert) =>
      AddStockKeeps(st, name, qty, price, insert);
      assert Step(st, a, urlOf) == AdminInventory.ManualAdd(st, AdminInventory.Fetch(st), name, qty, price, insert).store;
    case SetPrice(itemId, price, write) =>
      SetPriceKeeps(st, itemId, price, write);
      assert Step(st, a, urlOf) == AdminInventory.UpdatePrice(st, AdminInventory.Fetch(st), itemId, price, write).store;
    case DeleteRow(table, id, write) =>
      DeleteRowKeeps(st, table, id, write);
      assert Step(st, a, urlOf) == AdminInventory.Delete(st, AdminInventory.Fetch(st), table, id, true, write).store;
    case Buy(company, itemId, now, insert, decrement) =>
      PurchaseKeeps(st, company, itemId, now, insert, decrement);
      assert Step(st, a, urlOf) == Purchase(st, company, itemId, now, insert, decrement);
    case RemoveUser(u, requestsDelete, profileDelete) =>
      RemoveUserKeeps(st, u, requestsDelete, profileDelete);
  }

  /** The workflow theorem: from a store that satisfies the invariant, any run
      of offered actions keeps the serial ids ordered and bounded, keeps every
      request below Collected free of stock rows and every other request at
      one stock row at most, and never rewrites or drops an audit entry. */
  lemma {:induction false} RunKeeps(st: Store, acts: seq<Action>, urlOf: string -> string)
    requires Inv(st)
    requires forall i :: 0 <= i < |acts| ==> Valid(acts[i])
    ensures Inv(Run(st, acts, urlOf))
    ensures Extends(st.history, Run(st, acts, urlOf).history)
    decreases |acts|
  {
    if |acts| > 0 {
      var next := Step(st, acts[0], urlOf);
      StepKeeps(st, acts[0], urlOf);
      RunKeeps(next, acts[1..], urlOf);
      var h0, h1, h2 := st.history, next.history, Run(next, acts[1..], urlOf).history;
      assert h2[..|h0|] == h1[..|h1|][..|h0|];
    }
  }

  /** The empty store satisfies the invariant, so the theorem covers every run
      from a fresh deployment. */
  lemma EmptyStoreInv()
    ensures Inv(Store([], [], [], [], [], [], [], [], 0))
  {
  }
}

=== FILE: marketplace.dfy ===
/** The company marketplace page (src/app/company/marketplace/page.tsx): the
    in-stock listing, the Order Now button, and order placement, which inserts
    an order and then writes back the client's own snapshot quantity minus one. */
module Marketplace {
  import opened Base
  import opened Schema
  import opened Text

  function InStock(i: InventoryItem): bool {
    i.qty > 0
  }

  /** `fetchStock`: the rows of `inventory` with `qty > 0`. */
  function Listing(inv: seq<InventoryItem>): (r: seq<InventoryItem>)
    ensures forall i :: 0 <= i < |r| ==> r[i] in inv && r[i].qty > 0
    ensures forall i :: 0 <= i < |inv| && inv[i].qty > 0 ==> inv[i] in r
    ensures |r| <= |inv|
  {
    Filter(inv, InStock)
  }

  /** The Order Now button: disabled while this item's order is in flight
      (`ordering` holds the in-flight item id) or when it has no stock. */
  function OrderEnabled(ordering: Option<nat>, item: InventoryItem): (enabled: bool)
    ensures enabled ==> item.qty > 0
    ensures ordering == Some(item.id) ==> !enabled
    ensures ordering != Some(item.id) && item.qty > 0 ==> enabled
  {
    ordering != Some(item.id) && item.qty > 0
  }

  /** The order number: "ORD-" and the last six digits of the millisecond clock. */
  function OrderId(now: nat): (r: string)
    ensures 5 <= |r| <= 10 && r[..4] == "ORD-"
    ensures AllDigits(r[4..])
  {
    "ORD-" + Last(Decimal(now), 6)
  }

  /** For any clock reading of six digits or more, the order number is the
      reading zero-padded to its last six digits. */
  lemma OrderIdPadded(now: nat)
    requires now >= 100000
    ensures OrderId(now) == "ORD-" + Padded(now, 6)
  {
    assert Pow10(5) == 100000 && Pow10(6) == 1000000;
    DecimalLongEnough(now, 6);
    DecimalSuffix(now, 6);
  }

  /** For any clock reading of six digits or more, the order number carries the
      reading modulo one million, zero-padded to six digits. */
  lemma OrderIdDigits(now: nat)
    requires now >= 100000
    ensures OrderId(now) == "ORD-" + Padded(now, 6)
    ensures |OrderId(now)| == 10 && Value(OrderId(now)[4..]) == now % 1000000
  {
    assert Pow10(6) == 1000000;
    OrderIdPadded(now);
    ValueOfPadded(now, 6);
    assert OrderId(now)[4..] == Padded(now, 6);
  }

  /** Order numbers repeat every million milliseconds (about 16.7 minutes). */
  lemma OrderIdCollision(now: nat, m: nat)
    requires now >= 100000
    ensures OrderId(now + 1000000 * m) == OrderId(now)
  {
    var later := now + 1000000 * m;
    assert Pow10(6) == 1000000;
    OrderIdPadded(now);
    OrderIdPadded(later);
    PaddedPeriodic(now, 6, m);
  }

  datatype Alert = Silent | Placed(orderId: string) | OrderFailed

  /** The backend after the handler, the page's listing, and the dialog. */
  datatype Outcome = Outcome(store: Store, listing: seq<InventoryItem>, alert: Alert)

  /** The order row a purchase of one unit of `item` records. */
  function NewOrder(rowId: nat, company: UserId, item: InventoryItem, now: nat): (o: Order)
    ensures o.qty == 1 && o.totalPrice == o.qty * o.pricePerUnit && o.pricePerUnit == item.pricePerUnit
    ensures o.companyId == company && o.inventoryId == item.id && o.status == Requested
    ensures o.id == rowId && o.orderId == OrderId(now)
  {
    Order(rowId, OrderId(now), company, item.id, 1, item.pricePerUnit, item.pricePerUnit, Requested)
  }

  function WithQty(q: int): InventoryItem -> InventoryItem {
    (i: InventoryItem) => i.(qty := q)
  }

  /** `handleOrder(item)`: after confirmation insert the order; if that
      succeeds, write `item.qty - 1` (the snapshot's quantity) to that item;
      re-fetch the listing only when both succeed. */
  function PlaceOrder(st: Store, listing: seq<InventoryItem>, company: UserId, item: InventoryItem,
                      confirmed: bool, now: nat, insert: Reply, decrement: Reply): (out: Outcome)
    ensures !confirmed ==> out == Outcome(st, listing, Silent)
    ensures confirmed && insert.Failed? ==> out == Outcome(st, listing, OrderFailed)
    ensures confirmed && insert.Ok? ==>
      && out.store.orders == st.orders + [NewOrder(st.nextId, company, item, now)]
      && out.store.nextId == st.nextId + 1
    ensures confirmed && insert.Ok? && decrement.Failed? ==>
      out.store.inventory == st.inventory && out.listing == listing && out.alert == OrderFailed
    ensures confirmed && insert.Ok? && decrement.Ok? ==>
      && |out.store.inventory| == |st.inventory|
      && (forall i :: 0 <= i < |st.inventory| ==>
            out.store.inventory[i] == if st.inventory[i].id == item.id then st.inventory[i].(qty := item.qty - 1) else st.inventory[i])
      && out.listing == Listing(out.store.inventory)
      && out.alert == Placed(OrderId(now))
    ensures out.store.requests == st.requests && out.store.history == st.history && out.store.messages == st.messages
    ensures out.store.profiles == st.profiles && out.store.accounts == st.accounts && out.store.objects == st.objects
  {
    if !confirmed then Outcome(st, listing, Silent)
    else if insert.Failed? then Outcome(st, listing, OrderFailed)
    else
      var placed := st.(orders := st.orders + [NewOrder(st.nextId, company, item, now)], nextId := st.nextId + 1);
      if decrement.Failed? then Outcome(placed, listing, OrderFailed)
      else
        var store := placed.(inventory := Update(st.inventory, ItemIs(item.id), WithQty(item.qty - 1)));
        Outcome(store, Listing(store.inventory), Placed(OrderId(now)))
  }

  /** The lost update: two purchases issued from one listing snapshot record
      two orders but lower the stock by one. */
  lemma LostUpdate(st: Store, listing: seq<InventoryItem>, c1: UserId, c2: UserId, item: InventoryItem, t1: nat, t2: nat)
    ensures var first := PlaceOrder(st, listing, c1, item, true, t1, Ok, Ok);
      var second := PlaceOrder(first.store, listing, c2, item, true, t2, Ok, Ok);
      && |second.store.orders| == |st.orders| + 2
      && |second.store.inventory| == |st.inventory|
      && forall i :: 0 <= i < |st.inventory| && st.inventory[i].id == item.id ==>
           second.store.inventory[i].qty == item.qty - 1
  {
  }

  function InStockAs(id: nat): InventoryItem -> bool {
    (i: InventoryItem) => i.id == id && i.qty > 0
  }

  function Decremented(i: InventoryItem): InventoryItem {
    i.(qty := i.qty - 1)
  }

  /** The corrected purchase: a conditional server-side decrement
      (`qty = qty - 1 where id = item.id and qty > 0`) issued first, and the
      order recorded only when it matched a row. */
  function PlaceOrderAtomic(st: Store, company: UserId, item: InventoryItem, now: nat,
                            decrement: Reply, insert: Reply): (out: Store)
    ensures |out.inventory| == |st.inventory|
    ensures decrement.Ok? ==>
      forall i :: 0 <= i < |st.inventory| ==>
        out.inventory[i] == if st.inventory[i].id == item.id && st.inventory[i].qty > 0
                            then st.inventory[i].(qty := st.inventory[i].qty - 1) else st.inventory[i]
    ensures decrement.Failed? ==> out == st
    ensures |out.orders| == |st.orders| + (if decrement.Ok? && insert.Ok? && |Filter(st.inventory, InStockAs(item.id))| > 0 then 1 else 0)
    ensures forall i :: 0 <= i < |st.inventory| && st.inventory[i].qty >= 0 ==> out.inventory[i].qty >= 0
  {
    if decrement.Failed? then st
    else
      var inventory := Update(st.inventory, InStockAs(item.id), Decremented);
      var matched := |Filter(st.inventory, InStockAs(item.id))| > 0;
      if matched && insert.Ok? then
        st.(inventory := inventory, orders := st.orders + [NewOrder(st.nextId, company, item, now)], nextId := st.nextId + 1)
      else st.(inventory := inventory)
  }

  /** Row `k` is the only row of `inv` with id `id`. */
  ghost predicate OnlyAt(inv: seq<InventoryItem>, id: nat, k: nat) {
    k < |inv| && inv[k].id == id && forall i :: 0 <= i < |inv| && i != k ==> inv[i].id != id
  }

  /** One corrected purchase against the only row of the item: it sells a unit
      exactly when one is left. */
  lemma AtomicStep(st: Store, c: UserId, item: InventoryItem, t: nat, k: nat)
    requires OnlyAt(st.inventory, item.id, k)
    ensures var out := PlaceOrderAtomic(st, c, item, t, Ok, Ok);
      && OnlyAt(out.inventory, item.id, k)
      && out.inventory[k].qty == (if st.inventory[k].qty > 0 then st.inventory[k].qty - 1 else st.inventory[k].qty)
      && |out.orders| == |st.orders| + (if st.inventory[k].qty > 0 then 1 else 0)
  {
    if st.inventory[k].qty > 0 {
      assert st.inventory[k] in Filter(st.inventory, InStockAs(item.id));
    } else {
      FilterNone(st.inventory, InStockAs(item.id));
    }
  }

  /** With the conditional decrement, two purchases from one snapshot lower the
      stock by two, and the last unit cannot be sold twice. */
  lemma AtomicOrdersNeverLoseDecrement(st: Store, c1: UserId, c2: UserId, item: InventoryItem, t1: nat, t2: nat, k: nat)
    requires OnlyAt(st.inventory, item.id, k) && st.inventory[k].qty >= 1
    ensures var first := PlaceOrderAtomic(st, c1, item, t1, Ok, Ok);
      var second := PlaceOrderAtomic(first, c2, item, t2, Ok, Ok);
      && second.inventory[k].qty == (if st.inventory[k].qty >= 2 then st.inventory[k].qty - 2 else 0)
      && |second.orders| == |st.orders| + (if st.inventory[k].qty >= 2 then 2 else 1)
  {
    var first := PlaceOrderAtomic(st, c1, item, t1, Ok, Ok);
    AtomicStep(st, c1, item, t1, k);
    AtomicStep(first, c2, item, t2, k);
  }
}

=== FILE: navbar.dfy ===
/** The site navigation bar (src/components/Navbar.tsx): where the Dashboard
    button leads, which authentication links appear, and how the active link
    is weighted. */
module Navbar {
  import opened Base
  import opened Schema
  import AuthCache

  const AdminHome := "/admin/dashboard"
  const CompanyHome := "/company/dashboard"
  const CustomerHome := "/customer/dashboard"

  /** `getDashboardLink`: by the cached profile's role; any other role, and no
      profile at all, lead to the customer dashboard. */
  function DashboardLink(profile: Option<Profile>): (path: string)
    ensures path in {AdminHome, CompanyHome, CustomerHome}
    ensures path == AdminHome <==> profile.Some? && profile.value.role == "admin"
    ensures path == CompanyHome <==> profile.Some? && profile.value.role == "company"
  {
    if profile.Some? && profile.value.role == "admin" then AdminHome
    else if profile.Some? && profile.value.role == "company" then CompanyHome
    else CustomerHome
  }

  datatype Link = ProfileLink | Dashboard(to: string) | Login | JoinNow

  /** The authentication links: none while loading; Profile and Dashboard with
      a user; Login and Join Now without one. */
  function AuthLinks(s: AuthCache.Session): (links: seq<Link>)
    ensures s.loading <==> links == []
    ensures !s.loading && s.user.Some? ==> links == [ProfileLink, Dashboard(DashboardLink(s.profile))]
    ensures !s.loading && s.user.None? ==> links == [Login, JoinNow]
  {
    if s.loading then []
    else if s.user.Some? then [ProfileLink, Dashboard(DashboardLink(s.profile))]
    else [Login, JoinNow]
  }

  /** `linkStyle(isActive).fontWeight`. */
  function Weight(isActive: bool): (w: nat)
    ensures isActive <==> w == 700
    ensures !isActive <==> w == 500
  {
    if isActive then 700 else 500
  }

  /** Whether a string starts with a prefix (`pathname.startsWith(p)`). */
  predicate StartsWith(s: string, prefix: string) {
    |prefix| <= |s| && s[..|prefix|] == prefix
  }

  /** Active-link tests: Home and Profile by equality, Recycle and Login by
      prefix. */
  function HomeActive(pathname: string): bool { pathname == "/" }
  function RecycleActive(pathname: string): bool { StartsWith(pathname, "/customer/request") }
  function ProfileActive(pathname: string): bool { pathname == "/profile" }
  function LoginActive(pathname: string): bool { StartsWith(pathname, "/customer/login") }

  /** No pathname makes two of the four links bold at once. */
  lemma AtMostOneLinkActive(pathname: string)
    ensures (if HomeActive(pathname) then 1 else 0) + (if RecycleActive(pathname) then 1 else 0)
      + (if ProfileActive(pathname) then 1 else 0) + (if LoginActive(pathname) then 1 else 0) <= 1
  {
    if RecycleActive(pathname) {
      assert pathname[10] == pathname[..17][10] == 'r';
    }
  }

  /** Exactly one of the two link pairs is shown once loading ends, and a
      signed-out visitor never sees a Dashboard button. */
  lemma LinksExclusive(s: AuthCache.Session)
    requires !s.loading
    ensures Login in AuthLinks(s) <==> s.user.None?
    ensures (exists i :: 0 <= i < |AuthLinks(s)| && AuthLinks(s)[i].Dashboard?) <==> s.user.Some?
  {
    if s.user.Some? {
      assert AuthLinks(s)[1].Dashboard?;
    }
  }

  /** The Dashboard button follows the stale-cache case too: after a switch
      whose profile read failed, it leads to the previous user's dashboard. */
  lemma DashboardFollowsCachedProfile(s: AuthCache.Session, st: Store, a: UserId, b: UserId)
    requires a != b && s.user == Some(a) && s.fetchedId == Some(a) && AuthCache.Consistent(s)
    requires s.profile.value.role == "company"
    ensures var c := AuthCache.AuthChange(s, st, Some(b), false, Failed).session;
      AuthLinks(c) == [ProfileLink, Dashboard(CompanyHome)]
  {
  }
}

=== FILE: schema.dfy ===
/** The backend's tables as one immutable value. Rows are kept in insertion
    order; the backend hands out serial row ids from `nextId`, so ids ascend
    along every table and "newest first" is "ids descending". */
module Schema {
  import opened Base

  /** The identity provider's principal id (also the profile's primary key). */
  type UserId = string

  datatype RequestStatus = Pending | Accepted | Rejected | Collected | Completed

  /** A row of `pickup_requests`. `qty` is the stored `Number(quantity)`;
      `None` stands for a value that is not a number. */
  datatype PickupRequest = PickupRequest(
    id: nat,
    requestId: string,
    userId: UserId,
    ewasteType: string,
    description: string,
    qty: Option<int>,
    pickupAddress: string,
    pickupDate: string,
    pickupTime: string,
    imageUrl: string,
    status: RequestStatus)

  /** A row of `inventory`; prices are in minor currency units. */
  datatype InventoryItem = InventoryItem(
    id: nat,
    itemName: string,
    qty: int,
    pricePerUnit: int,
    sourceRequestId: Option<nat>)

  datatype OrderStatus = Requested | Approved

  /** A row of `company_orders`. */
  datatype Order = Order(
    id: nat,
    orderId: string,
    companyId: UserId,
    inventoryId: nat,
    qty: int,
    pricePerUnit: int,
    totalPrice: int,
    status: OrderStatus)

  /** A row of `request_status_history`. */
  datatype HistoryEntry = HistoryEntry(pickupRequestId: nat, status: RequestStatus, updatedBy: string)

  datatype MessageStatus = Unread | Read | Archived

  /** A row of `contact_messages`; `readAt` is a clock reading. */
  datatype ContactMessage = ContactMessage(
    id: nat,
    name: string,
    email: string,
    phone: string,
    message: string,
    status: MessageStatus,
    readAt: Option<nat>,
    readBy: Option<UserId>)

  /** A row of `profiles`. The role is free text: nothing checks it against a
      fixed set when a profile is written. */
  datatype Profile = Profile(id: UserId, email: string, fullName: string, role: string)

  /** An account of the identity provider. */
  datatype Account = Account(id: UserId, email: string, fullName: string, emailConfirmed: bool)

  /** Everything the workflow reads and writes: the tables, the storage
      bucket's object paths, the identity provider's accounts, and the next
      serial row id. */
  datatype Store = Store(
    requests: seq<PickupRequest>,
    inventory: seq<InventoryItem>,
    orders: seq<Order>,
    history: seq<HistoryEntry>,
    messages: seq<ContactMessage>,
    profiles: seq<Profile>,
    accounts: seq<Account>,
    objects: seq<string>,
    nextId: nat)

  function RequestKey(r: PickupRequest): int { r.id }
  function ItemKey(i: InventoryItem): int { i.id }
  function OrderKey(o: Order): int { o.id }
  function MessageKey(m: ContactMessage): int { m.id }

  /** Serial ids: every table's ids ascend and stay below `nextId`, and a stock
      row only ever points at an id that has been handed out. */
  ghost predicate WellFormed(st: Store) {
    && Ascending(st.requests, RequestKey)
    && Ascending(st.inventory, ItemKey)
    && Ascending(st.orders, OrderKey)
    && Ascending(st.messages, MessageKey)
    && (forall i :: 0 <= i < |st.requests| ==> st.requests[i].id < st.nextId)
    && (forall i :: 0 <= i < |st.inventory| ==> st.inventory[i].id < st.nextId)
    && (forall i :: 0 <= i < |st.orders| ==> st.orders[i].id < st.nextId)
    && (forall i :: 0 <= i < |st.messages| ==> st.messages[i].id < st.nextId)
    && (forall i :: 0 <= i < |st.inventory| && st.inventory[i].sourceRequestId.Some? ==>
          st.inventory[i].sourceRequestId.value < st.nextId)
  }

  // Row selectors, named so that every page speaks of the same predicate.

  function RequestIs(id: nat): PickupRequest -> bool { (r: PickupRequest) => r.id == id }
  function RequestIsNot(id: nat): PickupRequest -> bool { (r: PickupRequest) => r.id != id }
  function OwnedBy(u: UserId): PickupRequest -> bool { (r: PickupRequest) => r.userId == u }
  function NotOwnedBy(u: UserId): PickupRequest -> bool { (r: PickupRequest) => r.userId != u }
  function ItemIs(id: nat): InventoryItem -> bool { (i: InventoryItem) => i.id == id }
  function ItemIsNot(id: nat): InventoryItem -> bool { (i: InventoryItem) => i.id != id }
  function SourcedFrom(rid: nat): InventoryItem -> bool { (i: InventoryItem) => i.sourceRequestId == Some(rid) }
  function PlacedBy(u: UserId): Order -> bool { (o: Order) => o.companyId == u }
  function NotPlacedBy(u: UserId): Order -> bool { (o: Order) => o.companyId != u }
  function MessageIs(id: nat): ContactMessage -> bool { (m: ContactMessage) => m.id == id }
  function MessageIsNot(id: nat): ContactMessage -> bool { (m: ContactMessage) => m.id != id }
  function ProfileIs(u: UserId): Profile -> bool { (p: Profile) => p.id == u }
  function ProfileIsNot(u: UserId): Profile -> bool { (p: Profile) => p.id != u }
  function AccountIsNot(u: UserId): Account -> bool { (a: Account) => a.id != u }
  function HasRole(role: string): Profile -> bool { (p: Profile) => p.role == role }

  /** The stock rows created from pickup request `rid`. */
  function StockFrom(inv: seq<InventoryItem>, rid: nat): (r: seq<InventoryItem>)
    ensures forall i :: 0 <= i < |r| ==> r[i] in inv && r[i].sourceRequestId == Some(rid)
  {
    Filter(inv, SourcedFrom(rid))
  }

  /** The cross-table invariant of the request lifecycle: a request that has
      not reached Collected (or the legacy Completed) has no stock row, and one
      that has reached it has at most one. */
  ghost predicate StockTraced(st: Store) {
    Traced(st.requests, st.inventory)
  }

  /** `StockTraced` over the two tables it relates. */
  ghost predicate Traced(requests: seq<PickupRequest>, inventory: seq<InventoryItem>) {
    forall i :: 0 <= i < |requests| ==>
      |StockFrom(inventory, requests[i].id)| <= (if requests[i].status.Collected? || requests[i].status.Completed? then 1 else 0)
  }

  /** `profiles.select(…).eq('id', u).single()`: the row when exactly one
      profile has id `u`, and no row otherwise (`.single()` fails on zero or
      several rows). */
  function ProfileRow(profiles: seq<Profile>, u: UserId): (r: Option<Profile>)
    ensures r.Some? ==> r.value in profiles && r.value.id == u
    ensures r.None? <==> |Filter(profiles, ProfileIs(u))| != 1
  {
    var rows := Filter(profiles, ProfileIs(u));
    if |rows| == 1 then Some(rows[0]) else None
  }

  /** The role the dashboards check, read through `ProfileRow`. */
  function RoleOf(profiles: seq<Profile>, u: UserId): (r: Option<string>)
    ensures r.Some? ==> exists i :: 0 <= i < |profiles| && profiles[i].id == u && profiles[i].role == r.value
    ensures r.None? ==> |Filter(profiles, ProfileIs(u))| != 1
  {
    match ProfileRow(profiles, u)
    case Some(p) => Some(p.role)
    case None => None
  }

  /** The only profile of `u` decides its role. */
  lemma RoleOfOnly(profiles: seq<Profile>, u: UserId, k: int)
    requires 0 <= k < |profiles| && profiles[k].id == u
    requires forall i :: 0 <= i < |profiles| && i != k ==> profiles[i].id != u
    ensures RoleOf(profiles, u) == Some(profiles[k].role)
  {
    FilterOnly(profiles, ProfileIs(u), k);
  }

  /** A user without a profile has no role. */
  lemma RoleOfMissing(profiles: seq<Profile>, u: UserId)
    requires forall i :: 0 <= i < |profiles| ==> profiles[i].id != u
    ensures RoleOf(profiles, u) == None
  {
    FilterNone(profiles, ProfileIs(u));
  }

  /** Ascending ids are distinct: a row is the only one with its id. */
  lemma AscendingUnique<T>(s: seq<T>, key: T -> int, i: int, j: int)
    requires Ascending(s, key)
    requires 0 <= i < |s| && 0 <= j < |s| && key(s[i]) == key(s[j])
    ensures i == j
  {
  }
}

=== FILE: text.dfy ===
/** String building used by the identifiers the pages generate: decimal
    rendering of numbers (JavaScript's `n.toString()` on a non-negative
    integer), `slice(-k)`, removal of a character (`replace(/-/g, '')`) and
    `split('.').pop()`. */
module Text {
  import opened Base

  predicate IsDigit(c: char) {
    '0' <= c <= '9'
  }

  predicate AllDigits(s: string) {
    forall i :: 0 <= i < |s| ==> IsDigit(s[i])
  }

  function DigitChar(d: nat): (c: char)
    requires d < 10
    ensures IsDigit(c)
  {
    ('0' as int + d) as char
  }

  function DigitValue(c: char): (d: nat)
    requires IsDigit(c)
    ensures d < 10
  {
    c as int - '0' as int
  }

  function Pow10(k: nat): (p: nat)
    ensures p >= 1
  {
    if k == 0 then 1 else 10 * Pow10(k - 1)
  }

  /** The number a string of decimal digits denotes, most significant first. */
  function Value(s: string): nat
    requires AllDigits(s)
    decreases |s|
  {
    if |s| == 0 then 0 else 10 * Value(s[..|s| - 1]) + DigitValue(s[|s| - 1])
  }

  /** Decimal rendering of `n` without leading zeros. */
  function Decimal(n: nat): (s: string)
    ensures 1 <= |s|
    ensures AllDigits(s)
    ensures |s| > 1 ==> s[0] != '0'
  {
    if n < 10 then [DigitChar(n)] else Decimal(n / 10) + [DigitChar(n % 10)]
  }

  /** The last `k` decimal digits of `v`, zero-padded to exactly `k` characters. */
  function Padded(v: nat, k: nat): (s: string)
    ensures |s| == k
    ensures AllDigits(s)
  {
    if k == 0 then [] else Padded(v / 10, k - 1) + [DigitChar(v % 10)]
  }

  /** JavaScript's `s.slice(-k)` for `k > 0`: the last `k` characters, or all of
      `s` when it is shorter. */
  function Last(s: string, k: nat): (r: string)
    ensures |r| == if |s| <= k then |s| else k
    ensures r == s[|s| - |r|..]
  {
    if |s| <= k then s else s[|s| - k..]
  }

  /** `s` with every occurrence of `c` removed (`s.replace(/c/g, '')`). */
  function Without(s: string, c: char): (r: string)
    ensures c !in r
    ensures |r| <= |s|
  {
    Filter(s, (x: char) => x != c)
  }

  /** The text after the last `c` in `s`, or all of `s` when `c` does not
      occur: `s.split(c).pop()`. */
  function AfterLast(s: string, c: char): (r: string)
    ensures c !in r
    ensures |r| <= |s| && r == s[|s| - |r|..]
    ensures |r| < |s| ==> s[|s| - |r| - 1] == c
    ensures c !in s ==> r == s
    decreases |s|
  {
    if |s| == 0 then ""
    else if s[|s| - 1] == c then ""
    else AfterLast(s[..|s| - 1], c) + [s[|s| - 1]]
  }

  /** Decoding a rendering gives the number back. */
  lemma {:induction false} ValueOfDecimal(n: nat)
    ensures Value(Decimal(n)) == n
  {
    if n >= 10 {
      var s := Decimal(n);
      assert s[..|s| - 1] == Decimal(n / 10);
      ValueOfDecimal(n / 10);
    }
  }

  /** Decoding a padded rendering gives the number modulo `10^k`. */
  lemma {:induction false} ValueOfPadded(v: nat, k: nat)
    ensures Value(Padded(v, k)) == v % Pow10(k)
  {
    if k > 0 {
      var s := Padded(v, k);
      assert s[..|s| - 1] == Padded(v / 10, k - 1);
      ValueOfPadded(v / 10, k - 1);
      DivModStep(v, Pow10(k - 1));
    }
  }

  /** `10 * ((v / 10) % p) + v % 10 == v % (10 * p)`. */
  lemma DivModStep(v: nat, p: nat)
    requires p >= 1
    ensures 10 * ((v / 10) % p) + v % 10 == v % (10 * p)
  {
    var q := v / 10;
    var d := v % 10;
    var a := q / p;
    var b := q % p;
    assert q == a * p + b;
    assert v == 10 * q + d;
    assert v == (10 * p) * a + (10 * b + d) by {
      assert 10 * (a * p) == (10 * p) * a;
    }
    assert 0 <= 10 * b + d < 10 * p;
    ModUnique(v, 10 * p, a, 10 * b + d);
  }

  lemma ModUnique(v: nat, m: nat, a: nat, r: nat)
    requires m >= 1 && r < m && v == m * a + r
    ensures v % m == r
  {
    var a' := v / m;
    var r' := v % m;
    var d: int := a - a';
    assert m * d == r' - r by {
      assert m * d == m * a - m * a';
    }
    if d >= 1 {
      MulAtLeast(m, d);
    }
  }

  lemma MulAtLeast(m: nat, d: int)
    requires d >= 1
    ensures m * d >= m
  {
    assert m * d == m * (d - 1) + m;
  }

  /** The last `k` characters of a rendering are the padded last `k` digits. */
  lemma {:induction false} DecimalSuffix(n: nat, k: nat)
    requires k <= |Decimal(n)|
    ensures Decimal(n)[|Decimal(n)| - k..] == Padded(n, k)
  {
    var s := Decimal(n);
    if k == 0 {
    } else if n < 10 {
      assert s == [DigitChar(n)];
      assert Padded(n / 10, 0) == [];
    } else {
      var h := Decimal(n / 10);
      var last := [DigitChar(n % 10)];
      assert s == h + last;
      DecimalSuffix(n / 10, k - 1);
      SuffixOfAppend(h, last, |h| - (k - 1));
    }
  }

  /** A suffix of `h + t` that starts inside `h`. */
  lemma SuffixOfAppend(h: string, t: string, j: nat)
    requires j <= |h|
    ensures (h + t)[j..] == h[j..] + t
  {
  }

  /** A number of at least `10^(k-1)` renders to at least `k` characters. */
  lemma {:induction false} DecimalLongEnough(n: nat, k: nat)
    requires k >= 1 && n >= Pow10(k - 1)
    ensures |Decimal(n)| >= k
  {
    if k > 1 {
      assert n >= 10;
      assert n / 10 >= Pow10(k - 2);
      DecimalLongEnough(n / 10, k - 1);
    }
  }

  /** A number below `10^k` renders to at most `k` characters. */
  lemma {:induction false} DecimalShortEnough(n: nat, k: nat)
    requires k >= 1 && n < Pow10(k)
    ensures |Decimal(n)| <= k
  {
    if n >= 10 {
      assert k >= 2;
      assert n / 10 < Pow10(k - 1);
      DecimalShortEnough(n / 10, k - 1);
    }
  }

  /** Adding a multiple of `10^k` leaves the last `k` digits alone. */
  lemma {:induction false} PaddedPeriodic(v: nat, k: nat, m: nat)
    ensures Padded(v + Pow10(k) * m, k) == Padded(v, k)
  {
    if k > 0 {
      var x := Pow10(k - 1) * m;
      assert Pow10(k) * m == 10 * x;
      assert (v + 10 * x) / 10 == v / 10 + x;
      assert (v + 10 * x) % 10 == v % 10;
      PaddedPeriodic(v / 10, k - 1, m);
    }
  }

  /** Removing `c` from a concatenation removes it from each part. */
  lemma WithoutAppend(a: string, b: string, c: char)
    ensures Without(a + b, c) == Without(a, c) + Without(b, c)
  {
    FilterAppend(a, b, (x: char) => x != c);
  }

  /** Removing `c` from a string free of it changes nothing. */
  lemma WithoutAbsent(s: string, c: char)
    requires c !in s
    ensures Without(s, c) == s
  {
    FilterAll(s, (x: char) => x != c);
  }

  /** The last segment of `a + [c] + b` is `b` when `b` is free of `c`. */
  lemma {:induction false} AfterLastOfJoin(a: string, c: char, b: string)
    requires c !in b
    ensures AfterLast(a + [c] + b, c) == b
    decreases |b|
  {
    var x := a + [c] + b;
    if |b| == 0 {
      assert x[|x| - 1] == c;
    } else {
      var b' := b[..|b| - 1];
      assert x[..|x| - 1] == a + [c] + b';
      assert x[|x| - 1] == b[|b| - 1];
      assert b[|b| - 1] in b;
      AfterLastOfJoin(a, c, b');
      assert b' + [b[|b| - 1]] == b;
    }
  }

}
